=== FILE: README.md ===
# Truman World: a Dafny model of the simulation core

This project models the simulation and betting core of the Truman World
application. Truman is an agent who lives in a staged town. Actors and a
director talk to him. A suspicion meter rises with what he says, and the
audience bets on what happens next.

The model covers these parts:

- **The keyword scorer** (`Suspicion`). It turns Truman's reply into a
  suspicion increase of 0, 10 or 20.
- **The dialogue parser** (`Dialogue`). It turns a multi-line reply into
  `speaker: message` turns. On ASCII text, the regular expression
  `^(.*?):\s*(.*)$` is modelled exactly. This includes the lazy first
  group and the fact that `.` does not cross a line terminator.
- **The shared event store** (`GlobalContext`). It has three updates:
  - `addEvent` stamps an event and appends it;
  - `cleanup` keeps only the events of the last five minutes;
  - `updateSuspicion` clamps the level to 0..100.
- **The page transitions** (`Page`, over the state in `World`). These are:
  - Truman's reply and the meter update, with the fallback line;
  - the merge and append of world events;
  - the gate on Truman's next move, and the move itself;
  - the director's instruction handler;
  - the round of autonomous actor turns;
  - appending a generated bet.
- **The post-processing of three server routes**:
  - bet resolution (`ResolveBets`): extract the text from the first `[` to
    the last `]`, parse it, and require an array;
  - bet generation (`WorldAiBets`): reject an empty reply, parse it, and
    check four fields for truthiness;
  - the next-action route (`NextAction`): build the chat messages from the
    history, and normalise the answer.

Every network call is a parameter of the operation that makes it. `None`
stands for a failed fetch, an error status or an unreadable body. `Some`
holds the field the page reads from the body. `JSON.parse` is the parameter
`parse`, which returns `None` where it would throw. `Math.random()` and
`Date.now()` are parameters too. `Page.GenerateNewBet` is the exception:
it takes the route's `Result`, and a failed fetch or model call is folded
into its `Err` case, since the page only logs it and leaves the bets as
they were.

Strings are `seq<char>`. `trim`, `toLowerCase` and the regular expression
class `\s` are modelled on ASCII (`Text`).

Four behaviours of the code are worth knowing before reading the model:

- The page does not keep the meter in 0..100. A world event's `changes`
  can overwrite the meter with any value (`Page.MergeMeter`). The page's
  own meter update only caps at 100, so it pulls a meter above 100 down
  to 100.
- `placeBet` only logs. There are no stakes, and the pools and odds of a
  bet are fixed strings.
- A new move does not cancel the marker animation of an earlier one.
- The next-action route falls back to `"home"` when the answer is missing
  or blank (`NextAction.Normalize`). The page discards any other answer
  that names no location.

## Model

| member | source | states |
|---|---|---|
| Suspicion.Score | app/page.tsx:169-185 | The increase is 0, 10 or 20. It is 20 exactly when the lower-cased text contains a high word. It is 10 exactly when it contains no high word and contains a medium word. |
| Suspicion.ScoreIgnoresCase | app/components.tsx:164-180 | Lower-casing the text first does not change the score. |
| Suspicion.HighTierWins | app/page.tsx:173-181 | A text with both a high and a medium word scores 20. |
| Suspicion.ScoreMonotone | app/page.tsx:169-185 | Text added on either side never lowers the score. |
| Suspicion.ScoreExampleHigh | app/page.tsx:174-179 | "this is strange" scores 20. |
| Suspicion.ScoreExampleMedium | app/page.tsx:180-181 | "that's odd" scores 10. |
| Suspicion.ScoreExampleNone | app/page.tsx:169-184 | "hello there" scores 0. |
| Suspicion.ScoreExampleBothTiers | app/page.tsx:171-179 | "Strange, and a bit ODD" scores 20: case is ignored and the high tier wins. |
| Dialogue.ParseLine | app/components.tsx:207-214 | Both captured groups are trimmed. |
| Dialogue.ParseRawLine | app/components.tsx:204-215 | A raw line gives at most one turn, and a blank line gives none. |
| Dialogue.FirstSplitIsFirst | app/components.tsx:207 | The lazy group stops at the first colon where the whole expression matches. If it finds none, no colon matches. |
| Dialogue.ParseLineFirstColon | app/components.tsx:207-213 | On a line without line terminators, the speaker is the trimmed text before the first colon and the message the trimmed text after it. |
| Dialogue.ParseLineNoColon | app/components.tsx:207-214 | A line without a colon does not match and gives `null`. |
| Dialogue.ParseLineSpeakerColonFree | app/components.tsx:207-210 | On a line without line terminators, the speaker holds no colon. |
| Dialogue.ParseConversation | app/components.tsx:201-217 | The model of `parseConversationText`. It carries no contract of its own; `Dialogue.ParseConversationAppend`, `Dialogue.ParseConversationTrimmed` and `Dialogue.RoundTrip` state what it does. |
| Dialogue.ParseConversationAppend | app/components.tsx:201-217 | Parsing two texts joined by a newline gives the turns of the first, then the turns of the second. |
| Dialogue.ParseLinesCount | app/components.tsx:203-216 | There are at most as many turns as non-blank lines. |
| Dialogue.ParseConversationTrimmed | app/components.tsx:201-217 | Every turn comes from one line of the text, and its speaker and message are trimmed. |
| Dialogue.ParseConversationColonFree | app/components.tsx:207-216 | A text without a colon has no turns. |
| Dialogue.ColonFreeLineDropped | app/components.tsx:205-216 | A line without a colon is dropped. It changes neither the turn before it nor the one after it. |
| Dialogue.ParseConversationBlank | app/components.tsx:203-205 | Empty or blank text has no turns. |
| Dialogue.ParseConversationSpeakerColonFree | app/components.tsx:201-217 | In a text without carriage returns, no speaker contains a colon. |
| Dialogue.CarriageReturnMovesSplit | app/components.tsx:207 | With a bare `\r` in a line, the lazy group can pass the first colon: `"a: x:\ry"` gives speaker `"a: x"`. |
| Dialogue.RoundTrip | app/components.tsx:201-217 | Formatting a turn as `speaker: message` and parsing it back gives the turn. The speaker must be trimmed, single-line and colon-free; the message trimmed and single-line. |
| Text.JoinSplit | app/components.tsx:203 | Splitting at newlines loses nothing: joining the pieces rebuilds the text. |
| Text.SplitAppend | app/components.tsx:203 | Splitting `a + sep + b` gives the pieces of `a`, then the pieces of `b`. |
| Text.TrimIdentity | app/components.tsx:204 | Trimming a trimmed string changes nothing. |
| Text.LowerIdempotent | app/page.tsx:171 | Lower-casing twice is lower-casing once. |
| GlobalContext.AddEvent | app/store/globalContext.ts:28-30 | The log grows by one and its old events are unchanged. The new last event carries exactly the reported fields plus the current time. Bets and suspicion are unchanged. |
| GlobalContext.UnstampStamp | app/store/globalContext.ts:18 | Stamping an event keeps every field the caller reported. |
| GlobalContext.Cleanup | app/store/globalContext.ts:32-36 | An event survives exactly when it was in the log and is at most five minutes old. The log never grows, and bets and suspicion are unchanged. |
| GlobalContext.KeepRecentAppend | app/store/globalContext.ts:33-35 | The filter distributes over concatenation, so order is kept. |
| GlobalContext.CleanupIdempotent | app/store/globalContext.ts:32-36 | Two cleanups at the same moment equal one. |
| GlobalContext.AddThenCleanup | app/store/globalContext.ts:28-36 | An event added now survives a cleanup now, after the earlier recent events. |
| GlobalContext.KeepRecentLater | app/store/globalContext.ts:33-35 | A cleanup after an earlier one equals the later cleanup alone. |
| GlobalContext.UpdateSuspicion | app/store/globalContext.ts:38-40 | The level stays in 0..100. It equals old plus delta when that sum is in range, 0 below the range and 100 above it. The log and bets are unchanged. |
| GlobalContext.UpdateSuspicionMonotone | app/store/globalContext.ts:39 | A larger delta never gives a lower level. |
| GlobalContext.UpdateSuspicionZero | app/store/globalContext.ts:38-40 | A zero delta leaves an in-range store unchanged. |
| GlobalContext.UpdateSuspicionCompose | app/store/globalContext.ts:38-40 | Two same-sign updates of an in-range level equal one update by their sum. |
| GlobalContext.UpdateSuspicionClampLoses | app/store/globalContext.ts:39 | Opposite-sign updates do not compose: 90, then +20, then -20 gives 80, not 90. |
| Json.Property | app/api/world-ai-bets/route.ts:52 | A property read gives a value exactly when the value is an object with that key, and then it gives that field. |
| Json.FalsyValues | app/api/world-ai-bets/route.ts:52 | A read value is falsy exactly when it is absent, `null`, `false`, `0` or `""`. |
| Json.ContainersTruthy | app/api/world-ai-bets/route.ts:52 | Arrays and objects are truthy, even when empty. |
| ResolveBets.Slice | app/api/resolve-bets/route.ts:49 | `slice` clamps both ends to the length: within the length it is the sub-sequence, an end past the length runs to the end, and a start at or past the length or an end at or before the start gives `""`. |
| ResolveBets.ExtractArray | app/api/resolve-bets/route.ts:43-47 | There is no candidate exactly when the text lacks `[` or lacks `]`. |
| ResolveBets.Resolve | app/api/resolve-bets/route.ts:40-57 | Missing content fails. The error is "no array" exactly when a bracket is missing. On success, the extracted text parses to an array of exactly the returned results. |
| ResolveBets.ExtractArrayAt | app/api/resolve-bets/route.ts:43-49 | Prose without brackets around a bracketed text is discarded, and exactly that text is extracted. |
| ResolveBets.ExtractArrayShape | app/api/resolve-bets/route.ts:43-49 | A non-empty extraction starts with `[` and ends with `]`. No `[` comes before it and no `]` after it. |
| ResolveBets.InvertedBrackets | app/api/resolve-bets/route.ts:43-50 | For a trimmed reply `p]m[q` with no other brackets, the last `]` comes before the first `[`. The slice is then empty, and parsing it fails. |
| ResolveBets.ResolveChecksArray | app/api/resolve-bets/route.ts:50-57 | A parsed array is returned unchanged, and any other parsed value is rejected. |
| ResolveBets.ResolveWrappedArray | app/api/resolve-bets/route.ts:40-57 | A trimmed reply with an array inside prose resolves to that array. |
| WorldAiBets.GenerateBet | app/api/world-ai-bets/route.ts:42-56 | The result is a bet exactly when the content is present, non-empty, parses, and has a truthy question, options, endTime and odds. The bet is returned as parsed. Missing or empty content is the "no response" error. |
| WorldAiBets.FalsyFieldRejected | app/api/world-ai-bets/route.ts:52-54 | A bet with a required field missing, `null` or `""` is rejected. |
| WorldAiBets.ShallowValidation | app/api/world-ai-bets/route.ts:51-56 | The check is shallow: empty options and odds pass, and `id` and `pool` need not be present. |
| WorldAiBets.OnlyObjectsPass | app/api/world-ai-bets/route.ts:49-54 | A parsed value that is not an object is rejected. |
| NextAction.RoleOf | app/api/truman-next-action/route.ts:28 | The role is assistant exactly for Truman's lines, and it is never system. |
| NextAction.ChatMessages | app/api/truman-next-action/route.ts:12-31 | The messages are the system prompt followed by one message per history entry, in order. Message i+1 has content `from: text` of entry i, and its role is assistant exactly when the entry is Truman's. |
| NextAction.ChatMessageParses | app/api/truman-next-action/route.ts:29 | Each message's content parses back to its entry's speaker and text. |
| NextAction.ChatMessagesAppend | app/api/truman-next-action/route.ts:27-30 | The messages for two histories are the messages for the first, followed by those for the second. |
| NextAction.Normalize | app/api/truman-next-action/route.ts:40 | The answer is non-empty, trimmed and lower-case. A missing or blank answer gives "home". |
| NextAction.NormalizeText | app/api/truman-next-action/route.ts:40 | Otherwise the answer is the trimmed text lower-cased, with the same length. |
| NextAction.NormalizeIdempotent | app/api/truman-next-action/route.ts:40 | Normalising a normalised answer changes nothing. |
| NextAction.NormalizeExample | app/api/truman-next-action/route.ts:40 | `"  Work "` becomes `"work"`. |
| World.LocationOf | app/page.tsx:215-221 | A key that is found names the location with that key. |
| World.LocationOfKey | app/page.tsx:215-221 | Every location is found under its own key. |
| World.LocationOfKnown | app/page.tsx:431 | A key is found exactly when it is one of the five keys. |
| Page.GetTrumanResponse | app/page.tsx:534-577 | An empty action gets `null`, and only the meter can change. A failed call gets the fixed fallback with increase 0 and leaves the world alone. Otherwise the reply is the generated text with its score, and the meter rises by the score, capped at 100. |
| Page.GetTrumanResponseKeepsMeter | app/page.tsx:558-564 | An in-range meter stays in range and never falls. |
| Page.MergeChanges | app/page.tsx:282-288 | Each world field takes the change's value when the change mentions it, and otherwise keeps its old value. The current event is always the event. |
| Page.TriggerWorldAi | app/page.tsx:266-294 | A failed call changes nothing. Otherwise the event is appended to the recent events. When changes are present, the world becomes their merge with the event; otherwise the world is unchanged. Nothing else changes. |
| Page.MergeNothing | app/page.tsx:283-287 | Merging an event without changes only sets the current event. |
| Page.MergeIdempotent | app/page.tsx:283-287 | Merging the same event twice equals merging it once. |
| Page.EventOverridesChanges | app/page.tsx:285-286 | A `currentEvent` inside the changes never survives the merge. |
| Page.MergeMeter | app/page.tsx:283-287 | An in-range meter stays in range after the merge exactly when the changes carry no meter or an in-range one. |
| Page.MoveTruman | app/page.tsx:497-505 | The location becomes the target and Truman's activity becomes "Going to" plus its label. Nothing else changes. |
| Page.MoveTrumanLast | app/page.tsx:497-505 | Of two moves, only the last one counts. |
| Page.TrumanDecideNextAction | app/page.tsx:417-437 | Truman moves to the named location when the answer is a known key. A failed call or an unknown answer changes nothing. |
| Page.ConversationAsChat | app/page.tsx:419-426 | The conversation sent to the next-action route becomes one chat message per entry, in order, after the prompt. Each content is `from: text`, and an entry is the assistant's line exactly when it is Truman's. |
| Page.NextActionGate | app/page.tsx:431-433 | Truman moves exactly when the answer is one of the five keys, and then to the location with that key. |
| Page.NormalizedAnswerMoves | app/page.tsx:431-433 | The route's fallback sends Truman home, and a normalised key moves him to its location. |
| Page.HandleInstruction | app/page.tsx:580-617 | A blank instruction or no selected actor changes nothing. Otherwise the actor's history gains the instruction and the reply (with the fixed fallback when the actor's call fails), and the instruction box is cleared. The conversation gains the actor's line, then Truman's answer with its text and score. The world is the one Truman's reply leaves. An empty reply makes the handler reject after showing the line. Nothing else changes. |
| Page.HandleInstructionKeepsMeter | app/page.tsx:580-617 | An in-range meter stays in range and never falls. |
| Page.AgentTurn | app/page.tsx:441-493 | A draw above 0.3 or a failed call changes nothing. Otherwise the line goes into the actor's history and the conversation, followed by Truman's answer with its text and score, which is left out when the line is empty. The world is the one Truman's reply leaves, so only the meter can change, and it stays in range. Nothing but the histories, the conversation and the world changes. |
| Page.AgentAutonomousActions | app/page.tsx:440-494 | The model of `agentAutonomousActions`, one `Page.AgentLoop` turn per actor. Neither carries a contract of its own; `Page.AgentLoopAppend`, `Page.AgentLoopGrows` and `Page.AgentLoopFrame` state what the loop does. |
| Page.AgentLoopAppend | app/page.tsx:441-493 | A round over two groups of actors equals the round over the first group, then the round over the second. |
| Page.FailureDoesNotStopLoop | app/page.tsx:490-492 | A skipped or failed actor is passed over, and the loop goes on. |
| Page.AllSkipped | app/page.tsx:443 | A round in which every draw is above 0.3 changes nothing. |
| Page.AgentLoopFrame | app/page.tsx:440-494 | The history of anyone who does not act is untouched. Only the histories, the conversation and the world change. |
| Page.AgentLoopGrows | app/page.tsx:440-494 | The conversation only grows at its end, and the meter stays in range and never falls. |
| Page.GenerateNewBet | app/page.tsx:357-378 | A failed call changes nothing. Otherwise the accepted bet is appended and nothing else changes. |
| Page.GenerateNewBetKeepsValid | app/page.tsx:374 | When every bet on the board has the required fields, it still does after a generation. |
| Page.InitialSessionValid | app/page.tsx:225-355 | The starting session has its meter in range, valid bets, and Truman at home. |

## Left out

- Rendering is not modelled: all JSX and the UI components, `GlobalChat`,
  `ResultsModal` and `layout.tsx`. They hold no state logic.
- The OpenAI calls and prompts are not modelled, and neither is `JSON.parse`
  itself. A parsed reply is a `Json` value, or `None` where parsing throws.
- An HTTP failure is one failure outcome. It covers a fetch that throws, a
  non-`ok` status and an unreadable body.
- The timers (`setInterval`) are not modelled. Nothing in the page stops
  a new call from starting while an earlier one is still waiting. Each
  operation models one invocation.
- Interleavings of the asynchronous handlers are not modelled. Each
  handler is one atomic transition over the state it reads.
- The marker animation in `moveTruman` is not modelled. It is a series of
  floating-point interpolation steps that no other state depends on.
- `handleSendMessageToWorldAi` is not modelled. It only forwards a chat
  message and appends the reply.
- `placeBet` is not modelled. Its body only logs, so there are no stakes,
  pools or odds to update. `pool` and `odds` are the strings the page stores.
- The other server routes (`world-ai`, `world-ai-chat`, `agent-response`,
  `agent-autonomous-action`, `generate-response`) are not modelled; their
  answers are parameters here. Besides the model call, three of them
  replace an empty reply with a fixed literal: `agent-response` with
  "I'm not sure what to say.", `agent-autonomous-action` with
  "Hey Truman!" and `generate-response` with "I'm not sure how to respond
  to that.". `world-ai` rejects empty content before parsing it. So a
  successful call never hands the page an empty `response`. The page is
  modelled for any reply, including the empty ones these routes never
  send: the `null` of `Page.GetTrumanResponse`, the `Rejected` outcome of
  `Page.HandleInstruction` and the turn of `Page.AgentTurn` without
  Truman's answer are reached only through such a reply.
- Only ASCII is modelled for `trim`, `toLowerCase`, `\s` and the line
  terminators that `.` does not cross. Unicode white space (such as U+00A0
  or U+FEFF), the terminators U+2028 and U+2029, and non-ASCII case
  mappings are not.
- `Json.Property` does not model inherited properties. In the source, a key
  such as `constructor` is found on every object through its prototype.
- Only integer suspicion deltas are modelled, not fractional or NaN ones.
- `Page.MergeChanges` models only the five world fields, with an integer
  meter and string fields. The object spread at app/page.tsx:285 copies
  whatever `changes` holds. A meter that is not an integer is not
  modelled: the page does arithmetic on it at app/page.tsx:563, where a
  string is concatenated (`"50" + 0` is `"500"`), a fraction stays a
  fraction and `null` counts as 0. Such a meter is also sent as it is to
  the next-action route (app/page.tsx:423). Keys outside the five fields
  are not modelled either; they stay in the world state, which the world-ai
  and world-ai-bets requests send whole (app/page.tsx:273 and 364), so they
  reach those routes' prompts.
- `Page.AgentTurn` and `Page.HandleInstruction` do not model a reply body
  without a `response` field. There, `data.response` is `undefined`; here
  a reply is always a string.
- `GlobalContext.Cleanup` uses one clock reading for the whole filter. The
  source reads `Date.now()` once per event. If the clock ticks during the
  filter, an event right at the five-minute edge can also be dropped there.
- `Dialogue.ParseConversationSpeakerColonFree` holds only for text without
  carriage returns. `Dialogue.CarriageReturnMovesSplit` shows a speaker
  with a colon when a bare `\r` is inside a line.
- `Dialogue.ParseLineFirstColon` holds only for lines without line
  terminators, for the same reason.
- World.LocationOfKnown: finds only the five location keys. In the source,
  `locations[key]` is a plain-object lookup, so an inherited key such as
  `constructor` is found too.
- Page.TrumanDecideNextAction: an answer that is an inherited key (such as
  `constructor`) passes the source's gate, and Truman "moves" with the
  activity "Going to undefined". Here such an answer changes nothing.
- Page.NextActionGate: states the gate for the five keys only, for the
  same reason.

=== FILE: dialogue.dfy ===
/** The dialogue parser: a generated multi-line reply is split into lines,
    each line trimmed, blank lines dropped, and every remaining line matched
    against `^(.*?):\s*(.*)$`; lines that do not match are dropped. */
module Dialogue {
  import opened Wrappers
  import opened Text

  /** One parsed turn: who speaks and what they say. */
  datatype Line = Line(speaker: string, message: string)

  /** No line terminator at the positions from `lo` up to `hi`. */
  predicate NoTerminatorIn(s: string, lo: int, hi: int) {
    forall j :: lo <= j < hi && 0 <= j < |s| ==> !IsLineTerminator(s[j])
  }

  /** `^(.*?):\s*(.*)$` matches `line` with its lazy first group ending just
      before the colon at `i`: `.` crosses no line terminator, so the group
      before the colon must hold none, and neither may the rest once `\s*`
      has consumed the white space that follows the colon. */
  predicate SplitsAt(line: string, i: int) {
    0 <= i < |line| && line[i] == ':'
    && NoTerminatorIn(line, 0, i) && NoTerminatorIn(line, SkipSpace(line, i + 1), |line|)
  }

  /** The match the engine finds: the lazy group tries the shortest prefix
      first, so the first colon from `from` on at which the match succeeds. */
  function FirstSplit(line: string, from: nat): (r: Option<nat>)
    ensures r.Some? ==> from <= r.value && SplitsAt(line, r.value)
    decreases |line| - from
  {
    if from >= |line| then None
    else if SplitsAt(line, from) then Some(from)
    else FirstSplit(line, from + 1)
  }

  /** One trimmed, non-blank line: the trimmed groups of the match, or `None`
      where the match gives `null`. */
  function ParseLine(line: string): (r: Option<Line>)
    ensures r.Some? ==> IsTrimmed(r.value.speaker) && IsTrimmed(r.value.message)
  {
    match FirstSplit(line, 0)
    case None => None
    case Some(i) => Some(Groups(line, i))
  }

  /** The trimmed groups of a match whose first group ends at `i`: what
      precedes the colon, and what follows the white space after it. */
  function Groups(line: string, i: nat): Line
    requires i < |line|
  {
    Line(Trim(line[..i]), Trim(line[SkipSpace(line, i + 1)..]))
  }

  /** The turns one raw line contributes: none when it is blank once
      trimmed or does not match, else its one parsed turn. */
  function ParseRawLine(raw: string): (r: seq<Line>)
    ensures |r| <= 1
    ensures Trim(raw) == [] ==> r == []
  {
    var line := Trim(raw);
    if line == [] then []
    else
      match ParseLine(line)
      case None => []
      case Some(l) => [l]
  }

  /** The results of `f` on every element, concatenated in order. */
  function FlatMap<T, U>(f: T -> seq<U>, xs: seq<T>): seq<U> {
    if xs == [] then [] else f(xs[0]) + FlatMap(f, xs[1..])
  }

  /** Trim every line, drop the blank ones, parse the rest and drop the
      lines that do not match. */
  function ParseLines(lines: seq<string>): seq<Line> {
    FlatMap(ParseRawLine, lines)
  }

  /** The parser of a whole generated reply. */
  function ParseConversation(text: string): seq<Line> {
    ParseLines(Split(text, '\n'))
  }

  lemma {:induction false} FlatMapAppend<T, U>(f: T -> seq<U>, a: seq<T>, b: seq<T>)
    ensures FlatMap(f, a + b) == FlatMap(f, a) + FlatMap(f, b)
    decreases |a|
  {
    if a != [] {
      assert (a + b)[0] == a[0];
      assert (a + b)[1..] == a[1..] + b;
      FlatMapAppend(f, a[1..], b);
      calc {
        FlatMap(f, a + b);
        f(a[0]) + FlatMap(f, a[1..] + b);
        f(a[0]) + (FlatMap(f, a[1..]) + FlatMap(f, b));
        (f(a[0]) + FlatMap(f, a[1..])) + FlatMap(f, b);
      }
    } else {
      assert a + b == b;
    }
  }

  /** Every element of the result comes from the result of one element. */
  lemma {:induction false} FlatMapOrigin<T, U>(f: T -> seq<U>, xs: seq<T>, y: U)
    requires y in FlatMap(f, xs)
    ensures exists i :: 0 <= i < |xs| && y in f(xs[i])
    decreases |xs|
  {
    if y !in f(xs[0]) {
      FlatMapOrigin(f, xs[1..], y);
      var i :| 0 <= i < |xs[1..]| && y in f(xs[1..][i]);
      assert xs[1..][i] == xs[i + 1];
    }
  }

  lemma {:induction false} FlatMapEmpty<T, U>(f: T -> seq<U>, xs: seq<T>)
    requires forall i :: 0 <= i < |xs| ==> f(xs[i]) == []
    ensures FlatMap(f, xs) == []
    decreases |xs|
  {
    if xs != [] {
      assert forall i | 0 <= i < |xs[1..]| :: xs[1..][i] == xs[i + 1];
      FlatMapEmpty(f, xs[1..]);
    }
  }

  /** The search finds the first matching colon, and finds none only when
      there is none. */
  lemma {:induction false} FirstSplitIsFirst(line: string, from: nat)
    ensures var r := FirstSplit(line, from);
            (r.Some? ==> forall j :: from <= j < r.value ==> !SplitsAt(line, j))
            && (r.None? ==> forall j :: from <= j ==> !SplitsAt(line, j))
    decreases |line| - from
  {
    if from < |line| && !SplitsAt(line, from) {
      FirstSplitIsFirst(line, from + 1);
    }
  }

  /** The search stops at the first colon where the expression matches. */
  lemma {:induction false} FirstSplitAt(line: string, from: nat, k: nat)
    requires from <= k && SplitsAt(line, k)
    requires forall j :: from <= j < k ==> !SplitsAt(line, j)
    ensures FirstSplit(line, from) == Some(k)
    decreases k - from
  {
    if from < k {
      assert !SplitsAt(line, from);
      FirstSplitAt(line, from + 1, k);
    }
  }

  /** The `\s*` after the colon consumes exactly what `trimStart` drops. */
  lemma SkipSpaceIsTrimStart(s: string, i: nat)
    requires i <= |s|
    ensures TrimStart(s[i..]) == s[SkipSpace(s, i)..]
  {
    var k := SkipSpace(s, i);
    var t := s[i..];
    assert forall j | 0 <= j < k - i :: t[j] == s[i + j];
    TrimStartAt(t, k - i);
    assert t[k - i..] == s[k..];
  }

  /** On a line without line terminators the match succeeds at every colon,
      so the lazy group stops at the first one. */
  lemma FirstColonSplits(line: string, k: int)
    requires NoLineTerminator(line) && 0 <= k < |line| && line[k] == ':'
    requires ':' !in line[..k]
    ensures SplitsAt(line, k)
    ensures forall j :: 0 <= j < k ==> !SplitsAt(line, j)
  {
    forall j | 0 <= j < k ensures line[j] != ':' {
      assert line[j] == line[..k][j];
    }
  }

  /** On a line without line terminators the expression splits at the first
      colon: the speaker is what precedes it and the message what follows. */
  lemma ParseLineFirstColon(line: string)
    requires NoLineTerminator(line) && ':' in line
    ensures var k := IndexOf(line, ':');
            ParseLine(line) == Some(Line(Trim(line[..k]), Trim(line[k + 1..])))
  {
    var k := IndexOf(line, ':');
    FirstColonSplits(line, k);
    FirstSplitAt(line, 0, k);
    ParseLineAt(line, k);
    MessageAfterColon(line, k);
  }

  /** The turn of a line whose match splits at `k`. */
  lemma ParseLineAt(line: string, k: nat)
    requires FirstSplit(line, 0) == Some(k)
    ensures k < |line|
    ensures ParseLine(line) == Some(Line(Trim(line[..k]), Trim(line[SkipSpace(line, k + 1)..])))
  {
    assert ParseLine(line) == Some(Groups(line, k));
  }

  /** Skipping the white space after the colon before trimming changes
      nothing: the message is the trimmed rest of the line. */
  lemma MessageAfterColon(line: string, k: nat)
    requires k < |line|
    ensures Trim(line[SkipSpace(line, k + 1)..]) == Trim(line[k + 1..])
  {
    SkipSpaceIsTrimStart(line, k + 1);
    TrimAfterTrimStart(line[k + 1..]);
  }

  /** A line without a colon never matches. */
  lemma ParseLineNoColon(line: string)
    requires ':' !in line
    ensures ParseLine(line) == None
  {
  }

  /** On a line without line terminators no speaker contains a colon. */
  lemma ParseLineSpeakerColonFree(line: string)
    requires NoLineTerminator(line)
    ensures ParseLine(line).Some? ==> ':' !in ParseLine(line).value.speaker
  {
    if ':' in line {
      ParseLineFirstColon(line);
      var k := IndexOf(line, ':');
      var speaker := Trim(line[..k]);
      forall c | c in speaker ensures c != ':' {
        TrimInside(line[..k], c);
      }
    }
  }

  /** The turns of two texts joined by a newline are the turns of the first
      followed by the turns of the second: parsing keeps the line order. */
  lemma ParseConversationAppend(a: string, b: string)
    ensures ParseConversation(a + "\n" + b) == ParseConversation(a) + ParseConversation(b)
  {
    SplitAppend(a, b, '\n');
    FlatMapAppend(ParseRawLine, Split(a, '\n'), Split(b, '\n'));
  }

  /** The number of lines that are not blank once trimmed. */
  function NonBlankCount(lines: seq<string>): nat {
    if lines == [] then 0
    else (if Trim(lines[0]) == [] then 0 else 1) + NonBlankCount(lines[1..])
  }

  /** Each line yields at most one turn, and a blank line none. */
  lemma {:induction false} ParseLinesCount(lines: seq<string>)
    ensures |ParseLines(lines)| <= NonBlankCount(lines)
    decreases |lines|
  {
    if lines != [] {
      ParseLinesCount(lines[1..]);
    }
  }

  /** Every turn comes from a single line of the text, and its speaker and
      message are trimmed. */
  lemma ParseConversationTrimmed(text: string, l: Line)
    requires l in ParseConversation(text)
    ensures exists i :: 0 <= i < |Split(text, '\n')| && l in ParseRawLine(Split(text, '\n')[i])
    ensures IsTrimmed(l.speaker) && IsTrimmed(l.message)
  {
    var lines := Split(text, '\n');
    FlatMapOrigin(ParseRawLine, lines, l);
    var i :| 0 <= i < |lines| && l in ParseRawLine(lines[i]);
    ParseRawLineTrimmed(lines[i]);
  }

  /** The turn a raw line gives, if any, has a trimmed speaker and message. */
  lemma ParseRawLineTrimmed(raw: string)
    ensures forall l :: l in ParseRawLine(raw) ==> IsTrimmed(l.speaker) && IsTrimmed(l.message)
  {
    var line := Trim(raw);
    if ParseRawLine(raw) != [] {
      assert ParseLine(line).Some? && ParseRawLine(raw) == [ParseLine(line).value];
    }
  }

  /** A text without a colon parses to nothing. */
  lemma ParseConversationColonFree(text: string)
    requires ':' !in text
    ensures ParseConversation(text) == []
  {
    var lines := Split(text, '\n');
    SplitPiecesInside(text, '\n', ':');
    forall i | 0 <= i < |lines| ensures ParseRawLine(lines[i]) == [] {
      var line := Trim(lines[i]);
      forall c | c in line ensures c != ':' {
        TrimInside(lines[i], c);
      }
      ParseLineNoColon(line);
    }
    FlatMapEmpty(ParseRawLine, lines);
  }

  /** A line without a colon is dropped: it is not attached to the turn
      before it and does not disturb the turns around it. */
  lemma ColonFreeLineDropped(before: string, line: string, after: string)
    requires ':' !in line
    ensures ParseConversation(before + "\n" + line + "\n" + after)
         == ParseConversation(before) + ParseConversation(after)
  {
    var rest := line + "\n" + after;
    Regroup(before, line, after, "\n");
    ParseConversationAppend(before, rest);
    ParseConversationAppend(line, after);
    ParseConversationColonFree(line);
    calc {
      ParseConversation(before + "\n" + rest);
      ParseConversation(before) + ParseConversation(rest);
      ParseConversation(before) + (ParseConversation(line) + ParseConversation(after));
      ParseConversation(before) + ([] + ParseConversation(after));
      { assert [] + ParseConversation(after) == ParseConversation(after); }
      ParseConversation(before) + ParseConversation(after);
    }
  }

  /** Empty or blank text has no turns. */
  lemma ParseConversationBlank(text: string)
    requires AllSpace(text)
    ensures ParseConversation(text) == []
  {
    var lines := Split(text, '\n');
    SplitAllSpace(text, '\n');
    forall i | 0 <= i < |lines| ensures ParseRawLine(lines[i]) == [] {
      TrimEmpty(lines[i]);
    }
    FlatMapEmpty(ParseRawLine, lines);
  }

  /** Without carriage returns no speaker contains a colon: the lazy group
      stops at the first colon. */
  lemma ParseConversationSpeakerColonFree(text: string, l: Line)
    requires '\r' !in text && l in ParseConversation(text)
    ensures ':' !in l.speaker
  {
    var lines := Split(text, '\n');
    SplitPiecesInside(text, '\n', '\r');
    FlatMapOrigin(ParseRawLine, lines, l);
    var i :| 0 <= i < |lines| && l in ParseRawLine(lines[i]);
    TrimSingleLine(lines[i]);
    ParseLineSpeakerColonFree(Trim(lines[i]));
  }

  /** A piece of a text split at newlines, without carriage returns, is a
      single line once trimmed. */
  lemma TrimSingleLine(raw: string)
    requires '\r' !in raw && '\n' !in raw
    ensures NoLineTerminator(Trim(raw))
  {
    var line := Trim(raw);
    forall k | 0 <= k < |line| ensures !IsLineTerminator(line[k]) {
      TrimInside(raw, line[k]);
    }
  }

  /** A single trimmed line is parsed on its own. */
  lemma ParseConversationLine(line: string, l: Line)
    requires '\n' !in line && IsTrimmed(line) && line != []
    requires ParseLine(line) == Some(l)
    ensures ParseConversation(line) == [l]
  {
    ParseConversationOneLine(line);
    TrimIdentity(line);
  }

  /** With a bare carriage return in a line, the match can skip the first
      colon: here the speaker comes out as "a: x". */
  lemma CarriageReturnMovesSplit()
    ensures ParseConversation("a: x:\ry") == [Line("a: x", "y")]
  {
    CarriageReturnLine();
    CarriageReturnShape();
    ParseConversationLine("a: x:\ry", Line("a: x", "y"));
  }

  /** The line of `CarriageReturnMovesSplit` is one trimmed line: its `\r`
      is inside it, not at an end. */
  lemma CarriageReturnShape()
    ensures '\n' !in "a: x:\ry" && IsTrimmed("a: x:\ry") && "a: x:\ry" != []
  {
    var line := "a: x:\ry";
    assert line[0] == 'a' && line[|line| - 1] == 'y';
    assert line[0] != '\n' && line[1] != '\n' && line[2] != '\n' && line[3] != '\n'
        && line[4] != '\n' && line[5] != '\n' && line[6] != '\n';
  }

  /** The line of `CarriageReturnMovesSplit`: the colon at 1 does not split
      because the `\r` at 5 is left after `\s*`; the colon at 4 does,
      because `\s*` consumes that `\r`. */
  lemma CarriageReturnLine()
    ensures ParseLine("a: x:\ry") == Some(Line("a: x", "y"))
  {
    var line := "a: x:\ry";
    CarriageReturnSplits();
    FirstSplitAt(line, 0, 4);
    assert line[..4] == "a: x" && line[6..] == "y";
    TrimIdentity("a: x");
    TrimIdentity("y");
  }

  lemma CarriageReturnSplits()
    ensures SkipSpace("a: x:\ry", 5) == 6
    ensures SplitsAt("a: x:\ry", 4)
    ensures forall j :: 0 <= j < 4 ==> !SplitsAt("a: x:\ry", j)
  {
    var line := "a: x:\ry";
    assert SkipSpace(line, 2) == 3;
    assert !SplitsAt(line, 1) by { assert 5 < |line| && IsLineTerminator(line[5]); }
    forall j | 0 <= j < 4 ensures !SplitsAt(line, j) {
      if j != 1 { assert line[j] != ':'; }
    }
  }

  /** The text of a formatted turn once trimmed: only the blank after the
      colon of an empty message goes. */
  lemma FormattedTrim(speaker: string, message: string)
    requires IsTrimmed(speaker) && IsTrimmed(message)
    ensures Trim(speaker + ": " + message)
         == speaker + ":" + (if message == [] then [] else " " + message)
  {
    if message == [] {
      FormattedTrimEmpty(speaker);
      assert speaker + ": " + message == speaker + ": ";
    } else {
      var text := speaker + ": " + message;
      assert !IsSpace(text[0]) by { if speaker != [] { assert text[0] == speaker[0]; } }
      assert text[|text| - 1] == message[|message| - 1];
      TrimIdentity(text);
      assert speaker + ":" + " " + message == text;
    }
  }

  /** With an empty message the blank after the colon is trimmed away. */
  lemma FormattedTrimEmpty(speaker: string)
    requires IsTrimmed(speaker)
    ensures Trim(speaker + ": ") == speaker + ":"
  {
    var text := speaker + ": ";
    var n := |speaker|;
    assert !IsSpace(text[0]) by { if n > 0 { assert text[0] == speaker[0]; } }
    assert text[n] == ':';
    TrimAt(text, 0, n + 1);
    assert text[..n + 1] == speaker + ":";
  }

  /** A formatted turn is one line when its parts are. */
  lemma FormattedShape(speaker: string, message: string)
    requires NoLineTerminator(speaker) && NoLineTerminator(message)
    ensures '\n' !in speaker + ": " + message
  {
    var text := speaker + ": " + message;
    var n := |speaker|;
    forall k | 0 <= k < |text| ensures text[k] != '\n' {
      if k < n { assert text[k] == speaker[k]; }
      else if k > n + 1 { assert text[k] == message[k - n - 2]; }
    }
  }

  /** A text without a newline is parsed as one line. */
  lemma ParseConversationOneLine(text: string)
    requires '\n' !in text
    ensures ParseConversation(text) == ParseRawLine(text)
  {
    SplitWithoutSeparator(text, '\n');
    var lines := [text];
    assert lines[1..] == [];
    calc {
      ParseConversation(text);
      FlatMap(ParseRawLine, lines);
      ParseRawLine(lines[0]) + FlatMap(ParseRawLine, lines[1..]);
      ParseRawLine(text) + [];
    }
  }

  /** A trimmed message after one blank trims back to itself. */
  lemma TrimAfterBlank(message: string)
    requires IsTrimmed(message) && message != []
    ensures Trim(" " + message) == message
  {
    var after := " " + message;
    TrimStartAt(after, 1);
    assert after[1..] == message;
    TrimAfterTrimStart(after);
    TrimIdentity(message);
  }

  /** The formatted line is a single line whose first colon follows the speaker. */
  lemma FormattedLineShape(speaker: string, message: string)
    requires NoLineTerminator(speaker) && ':' !in speaker && NoLineTerminator(message)
    ensures var line := speaker + ":" + (if message == [] then [] else " " + message);
            NoLineTerminator(line) && IndexOf(line, ':') == |speaker|
            && line[..|speaker|] == speaker
            && line[|speaker| + 1..] == (if message == [] then [] else " " + message)
  {
    var tail := if message == [] then [] else " " + message;
    var line := speaker + ":" + tail;
    var n := |speaker|;
    if message != [] {
      NoLineTerminatorAppend(" ", message);
    }
    NoLineTerminatorAppend(speaker, ":");
    NoLineTerminatorAppend(speaker + ":", tail);
    FirstAfter(speaker, ':', tail);
    assert line[..n] == speaker;
    assert line[n + 1..] == tail;
  }

  /** Formatting a turn as `speaker: message` and parsing it back gives the
      turn, for a single-line, trimmed speaker without a colon and a
      single-line, trimmed message. */
  lemma RoundTrip(speaker: string, message: string)
    requires IsTrimmed(speaker) && NoLineTerminator(speaker) && ':' !in speaker
    requires IsTrimmed(message) && NoLineTerminator(message)
    ensures ParseConversation(speaker + ": " + message) == [Line(speaker, message)]
  {
    var text := speaker + ": " + message;
    var tail := if message == [] then [] else " " + message;
    var line := speaker + ":" + tail;
    FormattedShape(speaker, message);
    ParseConversationOneLine(text);
    FormattedTrim(speaker, message);
    FormattedLineShape(speaker, message);
    ParseLineFirstColon(line);
    TrimIdentity(speaker);
    if message != [] {
      TrimAfterBlank(message);
    }
    assert ParseLine(line) == Some(Line(speaker, message));
  }
}

=== FILE: global_context.dfy ===
/** The shared store of recent world events, active bets and a global
    suspicion level, with its three updates. The clock is a parameter:
    `now` is the millisecond reading of `Date.now()` at the update. */
module GlobalContext {
  import opened Wrappers

  datatype EventType = Movement | Interaction | Weather | Bet | Discovery

  /** An event as the caller reports it, before the store stamps it. */
  datatype EventInput = EventInput(
    kind: EventType,
    description: string,
    location: Option<string>,
    actors: Option<seq<string>>,
    betId: Option<string>)

  /** A recorded event: the reported fields plus the time it was added. */
  datatype GlobalEvent = GlobalEvent(
    kind: EventType,
    timestamp: int,
    description: string,
    location: Option<string>,
    actors: Option<seq<string>>,
    betId: Option<string>)

  datatype Store = Store(recentEvents: seq<GlobalEvent>, activeBets: seq<string>, globalSuspicion: int)

  /** Events older than five minutes are dropped by `cleanup`. */
  const MaxEventAge := 5 * 60 * 1000

  const MaxSuspicion := 100

  /** The store as it starts: no events, no bets, no suspicion. */
  const Initial := Store([], [], 0)

  /** The event `e` recorded at time `now`. */
  function Stamp(e: EventInput, now: int): (r: GlobalEvent)
    ensures r.timestamp == now
  {
    GlobalEvent(e.kind, now, e.description, e.location, e.actors, e.betId)
  }

  /** The reported fields of a recorded event. */
  function Unstamp(g: GlobalEvent): EventInput {
    EventInput(g.kind, g.description, g.location, g.actors, g.betId)
  }

  /** `addEvent`: append the event stamped with the current time. */
  function AddEvent(st: Store, e: EventInput, now: int): (r: Store)
    ensures |r.recentEvents| == |st.recentEvents| + 1
    ensures r.recentEvents[..|st.recentEvents|] == st.recentEvents
    ensures var last := r.recentEvents[|st.recentEvents|];
            last.timestamp == now && Unstamp(last) == e
    ensures r.activeBets == st.activeBets && r.globalSuspicion == st.globalSuspicion
  {
    st.(recentEvents := st.recentEvents + [Stamp(e, now)])
  }

  /** Stamping loses nothing the caller reported. */
  lemma UnstampStamp(e: EventInput, now: int)
    ensures Unstamp(Stamp(e, now)) == e
  {
  }

  /** An event is recent at `now` when it is at most five minutes old. */
  predicate IsRecent(g: GlobalEvent, now: int) {
    now - g.timestamp <= MaxEventAge
  }

  /** The events of `events` that are recent at `now`, in their order. */
  function KeepRecent(events: seq<GlobalEvent>, now: int): (r: seq<GlobalEvent>)
    ensures |r| <= |events|
    ensures forall i :: 0 <= i < |r| ==> IsRecent(r[i], now) && r[i] in events
  {
    if events == [] then []
    else (if IsRecent(events[0], now) then [events[0]] else []) + KeepRecent(events[1..], now)
  }

  /** `cleanup`: drop the events more than five minutes old. */
  function Cleanup(st: Store, now: int): (r: Store)
    ensures forall g :: g in r.recentEvents <==> g in st.recentEvents && IsRecent(g, now)
    ensures |r.recentEvents| <= |st.recentEvents|
    ensures r.activeBets == st.activeBets && r.globalSuspicion == st.globalSuspicion
  {
    KeepRecentMembers(st.recentEvents, now);
    st.(recentEvents := KeepRecent(st.recentEvents, now))
  }

  /** An event survives the filter exactly when it is recent. */
  lemma {:induction false} KeepRecentMembers(events: seq<GlobalEvent>, now: int)
    ensures forall g :: g in KeepRecent(events, now) <==> g in events && IsRecent(g, now)
    decreases |events|
  {
    if events != [] {
      KeepRecentMembers(events[1..], now);
      assert events == [events[0]] + events[1..];
    }
  }

  /** Filtering a log distributes over its parts. */
  lemma {:induction false} KeepRecentAppend(a: seq<GlobalEvent>, b: seq<GlobalEvent>, now: int)
    ensures KeepRecent(a + b, now) == KeepRecent(a, now) + KeepRecent(b, now)
    decreases |a|
  {
    if a == [] {
      assert a + b == b;
    } else {
      assert (a + b)[0] == a[0];
      assert (a + b)[1..] == a[1..] + b;
      KeepRecentAppend(a[1..], b, now);
      var head := if IsRecent(a[0], now) then [a[0]] else [];
      calc {
        KeepRecent(a + b, now);
        head + KeepRecent(a[1..] + b, now);
        head + (KeepRecent(a[1..], now) + KeepRecent(b, now));
        (head + KeepRecent(a[1..], now)) + KeepRecent(b, now);
      }
    }
  }

  /** A log whose events are all recent is kept whole. */
  lemma {:induction false} KeepRecentAll(events: seq<GlobalEvent>, now: int)
    requires forall i :: 0 <= i < |events| ==> IsRecent(events[i], now)
    ensures KeepRecent(events, now) == events
    decreases |events|
  {
    if events != [] {
      assert forall i | 0 <= i < |events[1..]| :: events[1..][i] == events[i + 1];
      KeepRecentAll(events[1..], now);
    }
  }

  /** Cleaning up twice at the same moment is cleaning up once. */
  lemma CleanupIdempotent(st: Store, now: int)
    ensures Cleanup(Cleanup(st, now), now) == Cleanup(st, now)
  {
    KeepRecentAll(KeepRecent(st.recentEvents, now), now);
  }

  /** An event added at `now` survives a cleanup at `now`, after the recent
      events that were already there. */
  lemma AddThenCleanup(st: Store, e: EventInput, now: int)
    ensures Cleanup(AddEvent(st, e, now), now).recentEvents
         == Cleanup(st, now).recentEvents + [Stamp(e, now)]
  {
    KeepRecentAppend(st.recentEvents, [Stamp(e, now)], now);
    assert [Stamp(e, now)][1..] == [];
  }

  /** A later cleanup keeps no more than an earlier one. */
  lemma {:induction false} KeepRecentLater(events: seq<GlobalEvent>, now: int, later: int)
    requires now <= later
    ensures KeepRecent(KeepRecent(events, now), later) == KeepRecent(events, later)
    decreases |events|
  {
    if events != [] {
      var head := if IsRecent(events[0], now) then [events[0]] else [];
      KeepRecentAppend(head, KeepRecent(events[1..], now), later);
      KeepRecentLater(events[1..], now, later);
      if head != [] {
        assert head[1..] == [];
      }
    }
  }

  /** `updateSuspicion`: add `delta` and clamp the level to 0 .. 100. */
  function UpdateSuspicion(st: Store, delta: int): (r: Store)
    ensures 0 <= r.globalSuspicion <= MaxSuspicion
    ensures 0 <= st.globalSuspicion + delta <= MaxSuspicion ==> r.globalSuspicion == st.globalSuspicion + delta
    ensures st.globalSuspicion + delta < 0 ==> r.globalSuspicion == 0
    ensures st.globalSuspicion + delta > MaxSuspicion ==> r.globalSuspicion == MaxSuspicion
    ensures r.recentEvents == st.recentEvents && r.activeBets == st.activeBets
  {
    st.(globalSuspicion := Clamp(st.globalSuspicion + delta))
  }

  /** `Math.max(0, Math.min(100, x))`. */
  function Clamp(x: int): int {
    if x > MaxSuspicion then MaxSuspicion else if x < 0 then 0 else x
  }

  /** A larger delta never gives a lower level. */
  lemma UpdateSuspicionMonotone(st: Store, d1: int, d2: int)
    requires d1 <= d2
    ensures UpdateSuspicion(st, d1).globalSuspicion <= UpdateSuspicion(st, d2).globalSuspicion
  {
  }

  /** Updating by zero keeps a level that is already in range. */
  lemma UpdateSuspicionZero(st: Store)
    requires 0 <= st.globalSuspicion <= MaxSuspicion
    ensures UpdateSuspicion(st, 0) == st
  {
  }

  /** Two updates in the same direction act as one update by their sum. */
  lemma UpdateSuspicionCompose(st: Store, d1: int, d2: int)
    requires 0 <= st.globalSuspicion <= MaxSuspicion
    requires (d1 >= 0 && d2 >= 0) || (d1 <= 0 && d2 <= 0)
    ensures UpdateSuspicion(UpdateSuspicion(st, d1), d2) == UpdateSuspicion(st, d1 + d2)
  {
  }

  /** Updates in opposite directions do not compose: going up past the
      ceiling and back down ends below where one combined update ends. */
  lemma UpdateSuspicionClampLoses()
    ensures UpdateSuspicion(UpdateSuspicion(Store([], [], 90), 20), -20).globalSuspicion == 80
    ensures UpdateSuspicion(Store([], [], 90), 20 + -20).globalSuspicion == 90
  {
  }
}

=== FILE: json.dfy ===
/** JSON values as `JSON.parse` produces them, and the JavaScript truthiness
    of a property read from one. */
module Json {
  import opened Wrappers

  datatype Json =
    | JNull
    | JBool(b: bool)
    | JNumber(n: real)
    | JString(s: string)
    | JArray(items: seq<Json>)
    | JObject(fields: map<string, Json>)

  /** `v[key]` for a key that is not a built-in property: the field of an
      object, and `undefined` (`None`) for every other value. Reading from
      `null` throws, so callers handle `JNull` before calling this. */
  function Property(v: Json, key: string): (r: Option<Json>)
    ensures r.Some? <==> v.JObject? && key in v.fields
    ensures r.Some? ==> r.value == v.fields[key]
  {
    match v
    case JObject(fields) => if key in fields then Some(fields[key]) else None
    case _ => None
  }

  /** JavaScript truthiness of a value read from JSON: `undefined`, `null`,
      `false`, `0` and the empty string are falsy; every array and every
      object, even an empty one, is truthy. */
  predicate Truthy(v: Option<Json>) {
    match v
    case None => false
    case Some(JNull) => false
    case Some(JBool(b)) => b
    case Some(JNumber(n)) => n != 0.0
    case Some(JString(s)) => s != []
    case Some(JArray(_)) => true
    case Some(JObject(_)) => true
  }

  /** Containers are truthy whatever they hold. */
  lemma ContainersTruthy(v: Json)
    requires v.JArray? || v.JObject?
    ensures Truthy(Some(v))
  {
  }

  /** A value is falsy exactly when it is absent or one of the five falsy
      literals. */
  lemma FalsyValues(v: Option<Json>)
    ensures !Truthy(v) <==>
      v == None || v == Some(JNull) || v == Some(JBool(false))
      || v == Some(JNumber(0.0)) || v == Some(JString([]))
  {
  }
}

=== FILE: next_action.dfy ===
/** The next-action route: the conversation history becomes chat messages
    after a system prompt, and the model's answer is normalised to a
    trimmed, lower-case location name with "home" as the fallback. */
module NextAction {
  import opened Wrappers
  import opened Text
  import Dialogue

  /** One entry of the conversation history as the route reads it. */
  datatype HistoryEntry = HistoryEntry(from: string, text: string)

  datatype Role = System | Assistant | User

  datatype ChatMessage = ChatMessage(role: Role, content: string)

  const TrumanName := "Truman"
  const Fallback := "home"

  /** The chat role of an entry: Truman's own lines are the assistant's. */
  function RoleOf(from: string): (r: Role)
    ensures r == Assistant <==> from == TrumanName
    ensures r != System
  {
    if from == TrumanName then Assistant else User
  }

  /** An entry as a chat message: the speaker's name, a colon and the text. */
  function ToChatMessage(e: HistoryEntry): ChatMessage {
    ChatMessage(RoleOf(e.from), e.from + ": " + e.text)
  }

  /** The messages sent to the model: the system prompt, then one message
      per history entry, in order. */
  function ChatMessages(systemPrompt: string, history: seq<HistoryEntry>): (r: seq<ChatMessage>)
    ensures |r| == |history| + 1
    ensures r[0] == ChatMessage(System, systemPrompt)
    ensures forall i :: 1 <= i < |r| ==> r[i].role != System
    ensures forall i :: 1 <= i < |r| ==> (r[i].role == Assistant <==> history[i - 1].from == TrumanName)
    ensures forall i :: 1 <= i < |r| ==> r[i].content == history[i - 1].from + ": " + history[i - 1].text
  {
    [ChatMessage(System, systemPrompt)] + seq(|history|, i requires 0 <= i < |history| => ToChatMessage(history[i]))
  }

  /** The content of each message names its speaker in the `speaker: text`
      form that the dialogue parser reads back. */
  lemma ChatMessageParses(systemPrompt: string, history: seq<HistoryEntry>, i: nat)
    requires i < |history|
    requires var e := history[i];
             IsTrimmed(e.from) && NoLineTerminator(e.from) && ':' !in e.from
             && IsTrimmed(e.text) && NoLineTerminator(e.text)
    ensures Dialogue.ParseConversation(ChatMessages(systemPrompt, history)[i + 1].content)
         == [Dialogue.Line(history[i].from, history[i].text)]
  {
    Dialogue.RoundTrip(history[i].from, history[i].text);
  }

  /** The history of two conversations is the history of each in turn. */
  lemma ChatMessagesAppend(systemPrompt: string, a: seq<HistoryEntry>, b: seq<HistoryEntry>)
    ensures ChatMessages(systemPrompt, a + b)
         == ChatMessages(systemPrompt, a) + ChatMessages(systemPrompt, b)[1..]
  {
  }

  /** `content?.trim().toLowerCase() || 'home'`. */
  function Normalize(content: Option<string>): (r: string)
    ensures r != [] && IsTrimmed(r) && HasNoUpper(r)
    ensures (content.None? || AllSpace(content.value)) ==> r == Fallback
  {
    match content
    case None => Fallback
    case Some(c) =>
      var t := Trim(c);
      TrimEmpty(c);
      LowerKeepsTrimmed(t);
      LowerHasNoUpper(t);
      var l := Lower(t);
      if l == [] then Fallback else l
  }

  /** Otherwise the answer is the trimmed, lower-cased text, and it differs
      from the text only in case and surrounding white space. */
  lemma NormalizeText(c: string)
    requires !AllSpace(c)
    ensures Normalize(Some(c)) == Lower(Trim(c))
    ensures |Normalize(Some(c))| == |Trim(c)|
  {
    TrimEmpty(c);
  }

  /** Normalising a normalised answer changes nothing. */
  lemma NormalizeIdempotent(content: Option<string>)
    ensures Normalize(Some(Normalize(content))) == Normalize(content)
  {
    var r := Normalize(content);
    TrimIdentity(r);
    LowerOfNoUpper(r);
  }

  /** Case and white-space variants map to the same key. */
  lemma NormalizeExample()
    ensures Normalize(Some("  Work ")) == "work"
  {
    var c := "  Work ";
    TrimAt(c, 2, 6);
    assert c[2..6] == "Work";
  }
}

=== FILE: page.dfy ===
/** The state transitions of the main page around its network calls. Each
    call's outcome is a parameter: `None` where the fetch fails, answers
    with an error status or its body cannot be read; otherwise the field
    the page reads from the body. The random draw of each autonomous turn
    is a parameter too. */
module Page {
  import opened Wrappers
  import opened Json
  import opened World
  import Text
  import Suspicion
  import NextAction
  import WorldAiBets

  const TrumanFallback := "I'm not sure I understand. Could you repeat that?"
  const AgentFallback := "I'm not sure what you mean."
  const DirectorName := "User"

  datatype TrumanReply = TrumanReply(text: string, suspicionIncrease: int)

  /** What `getTrumanResponse` returns (`None` for `null`) and the world
      after its meter update. */
  datatype TrumanStep = TrumanStep(reply: Option<TrumanReply>, world: WorldState)

  /** `getTrumanResponse(actorName, action)`, where `generated` is the text
      the response route produced. An empty action gets no reply; a failed
      call gets the fixed fallback and leaves the meter alone; otherwise the
      reply is scored and the meter rises by the score, saturating at 100. */
  function GetTrumanResponse(w: WorldState, action: string, generated: Option<string>): (r: TrumanStep)
    ensures r.world == w.(suspicionMeter := r.world.suspicionMeter)
    ensures r.reply.None? <==> action == []
    ensures generated.None? || action == [] ==> r.world == w
    ensures action != [] && generated.None? ==> r.reply == Some(TrumanReply(TrumanFallback, 0))
    ensures action != [] && generated.Some? ==>
              r.reply.value.text == generated.value
              && r.reply.value.suspicionIncrease == Suspicion.Score(generated.value)
    ensures action != [] && generated.Some? ==>
              var inc := r.reply.value.suspicionIncrease;
              (w.suspicionMeter + inc <= MeterCeiling ==> r.world.suspicionMeter == w.suspicionMeter + inc)
              && (w.suspicionMeter + inc > MeterCeiling ==> r.world.suspicionMeter == MeterCeiling)
  {
    if action == [] then TrumanStep(None, w)
    else
      match generated
      case None => TrumanStep(Some(TrumanReply(TrumanFallback, 0)), w)
      case Some(text) =>
        var inc := Suspicion.Score(text);
        var meter := if MeterCeiling < w.suspicionMeter + inc then MeterCeiling else w.suspicionMeter + inc;
        TrumanStep(Some(TrumanReply(text, inc)), w.(suspicionMeter := meter))
  }

  /** A reply never lowers an in-range meter and never takes it past 100. */
  lemma GetTrumanResponseKeepsMeter(w: WorldState, action: string, generated: Option<string>)
    requires MeterInRange(w)
    ensures var w' := GetTrumanResponse(w, action, generated).world;
            MeterInRange(w') && w.suspicionMeter <= w'.suspicionMeter
  {
  }

  /** The `changes` object of a world event: a value for each world field
      it mentions. */
  datatype Changes = Changes(
    weather: Option<string>,
    timeOfDay: Option<string>,
    currentEvent: Option<Option<string>>,
    suspicionMeter: Option<int>,
    viewerCount: Option<string>)

  const NoChanges := Changes(None, None, None, None, None)

  /** The body of a successful world-AI call. */
  datatype WorldEvent = WorldEvent(changes: Option<Changes>, event: Option<string>)

  /** `{...prev, ...changes, currentEvent: event}`. */
  function MergeChanges(w: WorldState, c: Changes, event: Option<string>): (r: WorldState)
    ensures c.weather.Some? ==> r.weather == c.weather.value
    ensures c.weather.None? ==> r.weather == w.weather
    ensures c.timeOfDay.Some? ==> r.timeOfDay == c.timeOfDay.value
    ensures c.timeOfDay.None? ==> r.timeOfDay == w.timeOfDay
    ensures c.suspicionMeter.Some? ==> r.suspicionMeter == c.suspicionMeter.value
    ensures c.suspicionMeter.None? ==> r.suspicionMeter == w.suspicionMeter
    ensures c.viewerCount.Some? ==> r.viewerCount == c.viewerCount.value
    ensures c.viewerCount.None? ==> r.viewerCount == w.viewerCount
    ensures r.currentEvent == event
  {
    var spread := WorldState(
      c.weather.GetOr(w.weather),
      c.timeOfDay.GetOr(w.timeOfDay),
      c.currentEvent.GetOr(w.currentEvent),
      c.suspicionMeter.GetOr(w.suspicionMeter),
      c.viewerCount.GetOr(w.viewerCount));
    spread.(currentEvent := event)
  }

  /** `triggerWorldAi`: on success the event is recorded, and the changes,
      when present, are merged into the world; a failed call changes
      nothing. */
  function TriggerWorldAi(s: Session, data: Option<WorldEvent>): (r: Session)
    ensures r == s.(world := r.world, recentEvents := r.recentEvents)
    ensures data.None? ==> r == s
    ensures data.Some? ==> r.recentEvents == s.recentEvents + [data.value.event]
    ensures data.Some? && data.value.changes.None? ==> r.world == s.world
    ensures data.Some? && data.value.changes.Some? ==>
              r.world == MergeChanges(s.world, data.value.changes.value, data.value.event)
              && r.world.currentEvent == data.value.event
  {
    match data
    case None => s
    case Some(d) =>
      var world := if d.changes.Some? then MergeChanges(s.world, d.changes.value, d.event) else s.world;
      s.(world := world, recentEvents := s.recentEvents + [d.event])
  }

  /** Merging no changes only sets the current event. */
  lemma MergeNothing(w: WorldState, event: Option<string>)
    ensures MergeChanges(w, NoChanges, event) == w.(currentEvent := event)
  {
  }

  /** Merging the same event twice is merging it once. */
  lemma MergeIdempotent(w: WorldState, c: Changes, event: Option<string>)
    ensures MergeChanges(MergeChanges(w, c, event), c, event) == MergeChanges(w, c, event)
  {
  }

  /** The current event always comes from the event, never from a
      `currentEvent` inside the changes. */
  lemma EventOverridesChanges(w: WorldState, c: Changes, event: Option<string>)
    requires c.currentEvent.Some? && c.currentEvent.value != event
    ensures MergeChanges(w, c, event).currentEvent != c.currentEvent.value
  {
  }

  /** The merge keeps the meter in range unless the changes carry a meter
      reading outside it: the spread can overwrite the meter too. */
  lemma MergeMeter(w: WorldState, c: Changes, event: Option<string>)
    requires MeterInRange(w)
    ensures MeterInRange(MergeChanges(w, c, event))
        <==> c.suspicionMeter.None? || 0 <= c.suspicionMeter.value <= MeterCeiling
  {
  }

  /** `moveTruman`: the location and Truman's activity change at once; the
      animation of the marker is not modelled. */
  function MoveTruman(s: Session, l: Location): (r: Session)
    ensures r.currentLocation == l
    ensures r.truman == s.truman.(currentActivity := "Going to " + Label(l))
    ensures r == s.(currentLocation := l, truman := r.truman)
  {
    s.(currentLocation := l, truman := s.truman.(currentActivity := "Going to " + Label(l)))
  }

  /** Only the last move of a sequence of moves matters. */
  lemma MoveTrumanLast(s: Session, a: Location, b: Location)
    ensures MoveTruman(MoveTruman(s, a), b) == MoveTruman(s, b)
  {
  }

  /** `trumanDecideNextAction`, where `nextAction` is the route's answer:
      Truman moves only to a known location key. */
  function TrumanDecideNextAction(s: Session, nextAction: Option<string>): (r: Session)
    ensures nextAction.None? || LocationOf(nextAction.value).None? ==> r == s
    ensures nextAction.Some? && LocationOf(nextAction.value).Some? ==>
              r == MoveTruman(s, LocationOf(nextAction.value).value)
  {
    match nextAction
    case None => s
    case Some(key) =>
      match LocationOf(key)
      case None => s
      case Some(l) => MoveTruman(s, l)
  }

  /** The conversation as `trumanDecideNextAction` sends it to the route. */
  function RouteHistory(s: Session): seq<NextAction.HistoryEntry> {
    seq(|s.conversation|, i requires 0 <= i < |s.conversation| => s.conversation[i].AsHistory())
  }

  /** The route sees every entry of the conversation, in order, as one chat
      message `from: text` after its prompt; Truman's replies are the
      assistant's lines and every other entry is the user's. */
  lemma ConversationAsChat(s: Session, prompt: string, i: nat)
    requires i < |s.conversation|
    ensures |NextAction.ChatMessages(prompt, RouteHistory(s))| == |s.conversation| + 1
    ensures var m := NextAction.ChatMessages(prompt, RouteHistory(s))[i + 1];
            (m.role == NextAction.Assistant <==> s.conversation[i].from == NextAction.TrumanName)
            && m.content == s.conversation[i].from + ": " + s.conversation[i].text
  {
  }

  /** The gate moves Truman exactly when the answer is one of the keys, and
      then to the location with that key. */
  lemma NextActionGate(s: Session, key: string)
    ensures (exists l: Location :: Key(l) == key) ==>
              exists l: Location :: Key(l) == key && TrumanDecideNextAction(s, Some(key)) == MoveTruman(s, l)
    ensures (forall l: Location :: Key(l) != key) ==> TrumanDecideNextAction(s, Some(key)) == s
  {
    LocationOfKnown(key);
  }

  /** The route's answers: its fallback sends Truman home, and any case or
      white-space variant of a key moves him there. */
  lemma NormalizedAnswerMoves(s: Session, content: Option<string>, l: Location)
    requires content.None? || NextAction.Normalize(content) == Key(l)
    ensures content.None? ==> TrumanDecideNextAction(s, Some(NextAction.Normalize(content))) == MoveTruman(s, Home)
    ensures content.Some? ==> TrumanDecideNextAction(s, Some(NextAction.Normalize(content))) == MoveTruman(s, l)
  {
    LocationOfKey(l);
  }

  datatype Outcome =
    | Completed
    | Rejected   // the handler throws: Truman was given an empty line

  datatype Handled = Handled(session: Session, outcome: Outcome)

  /** `handleInstruction`, where `agentReply` is the actor's generated
      reply and `generated` Truman's. A blank instruction or no selected
      actor does nothing; otherwise the instruction and the reply go into
      the actor's history, the reply into the conversation followed by
      Truman's answer, and the instruction box is cleared. An empty reply
      from the actor makes Truman's reply `null`, and reading its text
      throws after the actor's line was shown. */
  function HandleInstruction(s: Session, agentReply: Option<string>, generated: Option<string>): (r: Handled)
    ensures Text.Trim(s.instruction) == [] || s.selectedActor.None? ==> r == Handled(s, Completed)
    ensures Text.Trim(s.instruction) != [] && s.selectedActor.Some? ==>
              var name := s.selectedActor.value.name;
              var reply := agentReply.GetOr(AgentFallback);
              && r.session.agentConversations
                 == s.agentConversations[name := History(s, name) + [Message(DirectorName, s.instruction), Message(name, reply)]]
              && r.session.instruction == []
              && |r.session.conversation| == |s.conversation| + (if reply == [] then 1 else 2)
              && r.session.conversation[..|s.conversation| + 1] == s.conversation + [Action(name, reply)]
              && (r.outcome == Rejected <==> reply == [])
              && (reply != [] ==> r.session.conversation[|s.conversation| + 1].Response?
                                  && r.session.conversation[|s.conversation| + 1].from == NextAction.TrumanName)
              && r.session == s.(agentConversations := r.session.agentConversations, instruction := [],
                                 conversation := r.session.conversation, world := r.session.world)
    ensures Text.Trim(s.instruction) != [] && s.selectedActor.Some? ==>
              var reply := agentReply.GetOr(AgentFallback);
              var step := GetTrumanResponse(s.world, reply, generated);
              && r.session.world == step.world
              && (reply != [] ==> r.session.conversation[|s.conversation| + 1]
                                  == Response(NextAction.TrumanName, step.reply.value.text, step.reply.value.suspicionIncrease))
  {
    if Text.Trim(s.instruction) == [] || s.selectedActor.None? then Handled(s, Completed)
    else
      var name := s.selectedActor.value.name;
      var reply := agentReply.GetOr(AgentFallback);
      var history := History(s, name) + [Message(DirectorName, s.instruction), Message(name, reply)];
      var shown := s.(agentConversations := s.agentConversations[name := history],
                      conversation := s.conversation + [Action(name, reply)],
                      instruction := []);
      var step := GetTrumanResponse(shown.world, reply, generated);
      match step.reply
      case None => Handled(shown, Rejected)
      case Some(t) =>
        Handled(shown.(world := step.world,
                       conversation := shown.conversation + [Response(NextAction.TrumanName, t.text, t.suspicionIncrease)]),
                Completed)
  }

  /** Handling an instruction keeps the meter in range and only raises it. */
  lemma HandleInstructionKeepsMeter(s: Session, agentReply: Option<string>, generated: Option<string>)
    requires MeterInRange(s.world)
    ensures var w' := HandleInstruction(s, agentReply, generated).session.world;
            MeterInRange(w') && s.world.suspicionMeter <= w'.suspicionMeter
  {
    if Text.Trim(s.instruction) != [] && s.selectedActor.Some? {
      GetTrumanResponseKeepsMeter(s.world, agentReply.GetOr(AgentFallback), generated);
    }
  }

  /** The chance of each actor acting in a round. */
  const ActThreshold: real := 0.3

  /** One actor's turn: the random draw, the actor's generated line (`None`
      when the call fails) and Truman's generated reply. */
  datatype Tick = Tick(draw: real, agentReply: Option<string>, generated: Option<string>)

  /** The body of the loop for one actor. A draw above 0.3 skips the actor;
      a failed call is caught and changes nothing; otherwise the line goes
      into the actor's history and the conversation, followed by Truman's
      answer, which is missing when the line is empty because the error of
      reading a `null` reply is caught too. */
  function AgentTurn(s: Session, agent: Actor, t: Tick): (r: Session)
    ensures t.draw > ActThreshold || t.agentReply.None? ==> r == s
    ensures t.draw <= ActThreshold && t.agentReply.Some? ==>
              var line := t.agentReply.value;
              && r.agentConversations == s.agentConversations[agent.name := History(s, agent.name) + [Message(agent.name, line)]]
              && |r.conversation| == |s.conversation| + (if line == [] then 1 else 2)
              && r.conversation[..|s.conversation| + 1] == s.conversation + [Action(agent.name, line)]
              && (line != [] ==> r.conversation[|s.conversation| + 1].Response?
                                 && r.conversation[|s.conversation| + 1].from == NextAction.TrumanName)
    ensures t.draw <= ActThreshold && t.agentReply.Some? ==>
              var line := t.agentReply.value;
              var step := GetTrumanResponse(s.world, line, t.generated);
              && r.world == step.world
              && (line != [] ==> r.conversation[|s.conversation| + 1]
                                 == Response(NextAction.TrumanName, step.reply.value.text, step.reply.value.suspicionIncrease))
    ensures r == s.(agentConversations := r.agentConversations, conversation := r.conversation, world := r.world)
    ensures MeterInRange(s.world) ==> MeterInRange(r.world) && s.world.suspicionMeter <= r.world.suspicionMeter
  {
    if t.draw > ActThreshold then s
    else
      match t.agentReply
      case None => s
      case Some(line) =>
        var shown := s.(agentConversations := s.agentConversations[agent.name := History(s, agent.name) + [Message(agent.name, line)]],
                        conversation := s.conversation + [Action(agent.name, line)]);
        var step := GetTrumanResponse(shown.world, line, t.generated);
        match step.reply
        case None => shown
        case Some(reply) =>
          shown.(world := step.world,
                 conversation := shown.conversation + [Response(NextAction.TrumanName, reply.text, reply.suspicionIncrease)])
  }

  /** The turns of `agents` in order, one tick each. */
  function AgentLoop(s: Session, agents: seq<Actor>, ticks: seq<Tick>): Session
    requires |ticks| == |agents|
    decreases |agents|
  {
    if agents == [] then s else AgentLoop(AgentTurn(s, agents[0], ticks[0]), agents[1..], ticks[1..])
  }

  /** `agentAutonomousActions`: one turn per actor of the cast. */
  function AgentAutonomousActions(s: Session, ticks: seq<Tick>): Session
    requires |ticks| == |s.actors|
  {
    AgentLoop(s, s.actors, ticks)
  }

  /** A round is the round of its first agents followed by the round of the
      rest. */
  lemma {:induction false} AgentLoopAppend(s: Session, a: seq<Actor>, b: seq<Actor>, ta: seq<Tick>, tb: seq<Tick>)
    requires |ta| == |a| && |tb| == |b|
    ensures AgentLoop(s, a + b, ta + tb) == AgentLoop(AgentLoop(s, a, ta), b, tb)
    decreases |a|
  {
    if a == [] {
      assert a + b == b && ta + tb == tb;
    } else {
      assert (a + b)[0] == a[0] && (ta + tb)[0] == ta[0];
      assert (a + b)[1..] == a[1..] + b && (ta + tb)[1..] == ta[1..] + tb;
      AgentLoopAppend(AgentTurn(s, a[0], ta[0]), a[1..], b, ta[1..], tb);
    }
  }

  /** An actor whose call fails is passed over and the loop goes on with
      the next one. */
  lemma FailureDoesNotStopLoop(s: Session, a: seq<Actor>, agent: Actor, b: seq<Actor>,
                               ta: seq<Tick>, t: Tick, tb: seq<Tick>)
    requires |ta| == |a| && |tb| == |b|
    requires t.draw > ActThreshold || t.agentReply.None?
    ensures AgentLoop(s, a + [agent] + b, ta + [t] + tb) == AgentLoop(AgentLoop(s, a, ta), b, tb)
  {
    AgentLoopAppend(s, a + [agent], b, ta + [t], tb);
    AgentLoopAppend(s, a, [agent], ta, [t]);
    var s1 := AgentLoop(s, a, ta);
    assert AgentLoop(s1, [agent], [t]) == AgentLoop(AgentTurn(s1, agent, t), [], []);
  }

  /** A round in which every draw is above 0.3 changes nothing. */
  lemma {:induction false} AllSkipped(s: Session, agents: seq<Actor>, ticks: seq<Tick>)
    requires |ticks| == |agents|
    requires forall i :: 0 <= i < |ticks| ==> ticks[i].draw > ActThreshold
    ensures AgentLoop(s, agents, ticks) == s
    decreases |agents|
  {
    if agents != [] {
      assert forall i | 0 <= i < |ticks[1..]| :: ticks[1..][i] == ticks[i + 1];
      AllSkipped(s, agents[1..], ticks[1..]);
    }
  }

  /** The history of anyone who does not act in the round is untouched,
      and nothing but the histories, the conversation and the world
      changes. */
  lemma {:induction false} AgentLoopFrame(s: Session, agents: seq<Actor>, ticks: seq<Tick>, name: string)
    requires |ticks| == |agents|
    requires forall i :: 0 <= i < |agents| ==> agents[i].name != name
    ensures var r := AgentLoop(s, agents, ticks);
            (name in r.agentConversations <==> name in s.agentConversations)
            && History(r, name) == History(s, name)
            && r == s.(agentConversations := r.agentConversations, conversation := r.conversation, world := r.world)
    decreases |agents|
  {
    if agents != [] {
      assert forall i | 0 <= i < |agents[1..]| :: agents[1..][i] == agents[i + 1];
      AgentLoopFrame(AgentTurn(s, agents[0], ticks[0]), agents[1..], ticks[1..], name);
    }
  }

  /** The conversation only grows, and the meter stays in range and never
      falls, over a whole round. */
  lemma {:induction false} AgentLoopGrows(s: Session, agents: seq<Actor>, ticks: seq<Tick>)
    requires |ticks| == |agents|
    requires MeterInRange(s.world)
    ensures var r := AgentLoop(s, agents, ticks);
            |s.conversation| <= |r.conversation| && r.conversation[..|s.conversation|] == s.conversation
            && MeterInRange(r.world) && s.world.suspicionMeter <= r.world.suspicionMeter
    decreases |agents|
  {
    if agents != [] {
      var s1 := AgentTurn(s, agents[0], ticks[0]);
      AgentLoopGrows(s1, agents[1..], ticks[1..]);
      var r := AgentLoop(s1, agents[1..], ticks[1..]);
      assert s1.conversation[..|s.conversation|] == s.conversation;
      assert r.conversation[..|s.conversation|] == r.conversation[..|s1.conversation|][..|s.conversation|];
    }
  }

  /** `generateNewBet`: the bet the route accepted is appended; a failed
      call changes nothing. `Err` carries the route's own rejections, and a
      fetch or model-call failure, which the page only logs, is folded into
      it the same way. */
  function GenerateNewBet(s: Session, answer: Result<Json, WorldAiBets.BetError>): (r: Session)
    ensures answer.Err? ==> r == s
    ensures answer.Ok? ==> r == s.(bets := s.bets + [answer.value])
  {
    match answer
    case Ok(bet) => s.(bets := s.bets + [bet])
    case Err(_) => s
  }

  /** Every bet on the board has the fields the route demands. */
  predicate BetsValid(s: Session) {
    forall i :: 0 <= i < |s.bets| ==> WorldAiBets.HasRequiredFields(s.bets[i])
  }

  /** The route's answers keep the board valid. */
  lemma GenerateNewBetKeepsValid(s: Session, content: Option<string>, parse: string -> Option<Json>)
    requires BetsValid(s)
    ensures BetsValid(GenerateNewBet(s, WorldAiBets.GenerateBet(content, parse)))
  {
  }

  /** The session starts with the meter in range and valid bets. */
  lemma InitialSessionValid()
    ensures MeterInRange(InitialSession.world) && BetsValid(InitialSession)
    ensures InitialSession.currentLocation == Home
  {
    forall i | 0 <= i < |InitialBets| ensures WorldAiBets.HasRequiredFields(InitialBets[i]) {
      var bet := InitialBets[i];
      assert Property(bet, "question").Some? && Property(bet, "question").value.JString?;
    }
  }
}

=== FILE: resolve_bets.dfy ===
/** The post-processing of the bet-resolution route: the generated text is
    trimmed, the part from its first `[` to its last `]` is parsed, and the
    result must be an array. `JSON.parse` is the parameter `parse`, which
    gives `None` where it throws. */
module ResolveBets {
  import opened Wrappers
  import opened Text
  import opened Json

  /** Why the route answers with status 500. */
  datatype ResolveError =
    | NoContent    // the generated message has no content, so `trim` throws
    | NoArray      // no `[` or no `]` in the trimmed text
    | ParseFailed  // `JSON.parse` throws on the extracted text
    | NotAnArray   // the parsed value is not an array
  {
    /** The message the route reports; `None` where the runtime supplies it. */
    function Message(): Option<string> {
      match this
      case NoArray => Some("Response does not contain a valid JSON array")
      case NotAnArray => Some("Parsed results are not a valid array")
      case _ => None
    }
  }

  /** `s.slice(start, end)` for non-negative arguments: both are clamped to
      the length, and an end at or before the start gives the empty string. */
  function Slice(s: string, start: nat, end: nat): (r: string)
    ensures |r| <= |s|
    ensures start < end <= |s| ==> r == s[start..end]
    ensures end <= start ==> r == []
    ensures start <= |s| <= end ==> r == s[start..]
    ensures |s| <= start ==> r == []
  {
    var b := if start > |s| then |s| else start;
    var e := if end > |s| then |s| else end;
    if e <= b then [] else s[b..e]
  }

  /** The candidate array text: `None` when a bracket is missing, else the
      slice from the first `[` to the last `]` inclusive. */
  function ExtractArray(text: string): (r: Option<string>)
    ensures r.None? <==> '[' !in text || ']' !in text
  {
    var start := IndexOf(text, '[');
    var end := LastIndexOf(text, ']');
    if start == -1 || end == -1 then None
    else Some(Slice(text, start, end + 1))
  }

  /** The route after the model call: the parsed results, or why it fails. */
  function Resolve(content: Option<string>, parse: string -> Option<Json>): (r: Result<seq<Json>, ResolveError>)
    ensures content.None? ==> r == Err(NoContent)
    ensures r.Ok? ==> content.Some? && ExtractArray(Trim(content.value)).Some?
                      && parse(ExtractArray(Trim(content.value)).value) == Some(JArray(r.value))
    ensures r == Err(NoArray) <==> content.Some? && ExtractArray(Trim(content.value)).None?
  {
    match content
    case None => Err(NoContent)
    case Some(c) =>
      match ExtractArray(Trim(c))
      case None => Err(NoArray)
      case Some(text) =>
        match parse(text)
        case None => Err(ParseFailed)
        case Some(JArray(items)) => Ok(items)
        case Some(_) => Err(NotAnArray)
  }

  /** Whatever surrounds the array is discarded: with no `[` before it and
      no `]` after it, the array text is exactly what is extracted. */
  lemma ExtractArrayAt(p: string, x: string, q: string)
    requires |x| >= 2 && x[0] == '[' && x[|x| - 1] == ']'
    requires '[' !in p && ']' !in q
    ensures ExtractArray(p + x + q) == Some(x)
  {
    var t := p + x + q;
    var start := |p|;
    var end := |p| + |x| - 1;
    assert t[..start] == p;
    assert t[start] == '[';
    assert IndexOf(t, '[') == start;
    assert t[end + 1..] == q;
    assert t[end] == ']';
    assert LastIndexOf(t, ']') == end;
    assert t[start..end + 1] == x;
  }

  /** Conversely, a non-empty extraction is an array text whose first `[`
      and last `]` are those of the whole text. */
  lemma ExtractArrayShape(t: string)
    requires ExtractArray(t).Some? && ExtractArray(t).value != []
    ensures var x := ExtractArray(t).value;
            |x| >= 2 && x[0] == '[' && x[|x| - 1] == ']'
            && exists i :: 0 <= i <= |t| - |x| && t[i..i + |x|] == x
                 && '[' !in t[..i] && ']' !in t[i + |x|..]
  {
    var start := IndexOf(t, '[');
    var end := LastIndexOf(t, ']');
    var x := ExtractArray(t).value;
    assert start < end + 1;
    assert start != end;
    assert x == t[start..end + 1];
    assert t[start + |x|..] == t[end + 1..];
  }

  /** When the last `]` comes before the first `[`, the slice is empty and
      parsing it fails. */
  lemma InvertedBrackets(p: string, m: string, q: string, parse: string -> Option<Json>)
    requires IsTrimmed(p + "]" + m + "[" + q)
    requires '[' !in p + "]" + m && ']' !in m + "[" + q
    requires parse([]) == None
    ensures Resolve(Some(p + "]" + m + "[" + q), parse) == Err(ParseFailed)
  {
    var t := p + "]" + m + "[" + q;
    TrimIdentity(t);
    BracketPositions(p, m, q);
  }

  /** In `p]m[q` with no other brackets, the first `[` follows `m` and the
      last `]` follows `p`. */
  lemma BracketPositions(p: string, m: string, q: string)
    requires '[' !in p + "]" + m && ']' !in m + "[" + q
    ensures IndexOf(p + "]" + m + "[" + q, '[') == |p| + 1 + |m|
    ensures LastIndexOf(p + "]" + m + "[" + q, ']') == |p|
  {
    var before := p + "]" + m;
    var after := m + "[" + q;
    Regroup5(p, "]", m, "[", q);
    FirstAfter(before, '[', q);
    LastBefore(p, ']', after);
  }

  /** A parsed value that is not an array is rejected, and an array is
      returned as it was parsed. */
  lemma ResolveChecksArray(content: string, parse: string -> Option<Json>, v: Json)
    requires ExtractArray(Trim(content)).Some?
    requires parse(ExtractArray(Trim(content)).value) == Some(v)
    ensures v.JArray? ==> Resolve(Some(content), parse) == Ok(v.items)
    ensures !v.JArray? ==> Resolve(Some(content), parse) == Err(NotAnArray)
  {
  }

  /** A reply wrapped in prose around a JSON array resolves to that array. */
  lemma ResolveWrappedArray(p: string, x: string, q: string, parse: string -> Option<Json>, items: seq<Json>)
    requires |x| >= 2 && x[0] == '[' && x[|x| - 1] == ']'
    requires '[' !in p && ']' !in q
    requires Trim(p + x + q) == p + x + q
    requires parse(x) == Some(JArray(items))
    ensures Resolve(Some(p + x + q), parse) == Ok(items)
  {
    ExtractArrayAt(p, x, q);
  }
}

=== FILE: suspicion.dfy ===
/** The keyword scorer that turns one line of Truman's dialogue into a
    suspicion increase of 0, 10 or 20. */
module Suspicion {
  import opened Text

  /** Words that raise suspicion by 20. */
  const HighWords: seq<string> := ["suspicious", "watched", "strange", "weird"]

  /** Words that raise suspicion by 10, unless a high word is present. */
  const MediumWords: seq<string> := ["unusual", "odd"]

  const HighIncrease := 20
  const MediumIncrease := 10

  /** Some word of `words` occurs in `text`. */
  predicate MentionsAny(text: string, words: seq<string>) {
    exists i :: 0 <= i < |words| && Contains(text, words[i])
  }

  /** The suspicion increase of a response: the first tier whose words occur
      in the lower-cased text wins. */
  function Score(text: string): (r: int)
    ensures r == 0 || r == MediumIncrease || r == HighIncrease
    ensures r == HighIncrease <==> MentionsAny(Lower(text), HighWords)
    ensures r == MediumIncrease <==> !MentionsAny(Lower(text), HighWords) && MentionsAny(Lower(text), MediumWords)
  {
    var lower := Lower(text);
    if MentionsAny(lower, HighWords) then HighIncrease
    else if MentionsAny(lower, MediumWords) then MediumIncrease
    else 0
  }

  /** The score ignores letter case. */
  lemma ScoreIgnoresCase(text: string)
    ensures Score(text) == Score(Lower(text))
  {
    LowerIdempotent(text);
  }

  /** A high word wins over a medium word in the same text. */
  lemma HighTierWins(text: string, high: nat, medium: nat)
    requires high < |HighWords| && medium < |MediumWords|
    requires Contains(Lower(text), HighWords[high]) && Contains(Lower(text), MediumWords[medium])
    ensures Score(text) == HighIncrease
  {
  }

  lemma MentionsAnyExtend(a: string, s: string, b: string, words: seq<string>)
    requires MentionsAny(s, words)
    ensures MentionsAny(a + s + b, words)
  {
    var i :| 0 <= i < |words| && Contains(s, words[i]);
    ContainsExtend(a, s, b, words[i]);
  }

  /** Saying more never lowers the score: the score of a text is at least the
      score of any part of it. */
  lemma ScoreMonotone(a: string, s: string, b: string)
    ensures Score(s) <= Score(a + s + b)
  {
    LowerAppend(a + s, b);
    LowerAppend(a, s);
    if MentionsAny(Lower(s), HighWords) {
      MentionsAnyExtend(Lower(a), Lower(s), Lower(b), HighWords);
    } else if MentionsAny(Lower(s), MediumWords) {
      MentionsAnyExtend(Lower(a), Lower(s), Lower(b), MediumWords);
    }
  }

  /** A word none of whose characters occurs in the text is not in it. */
  lemma AbsentByChar(s: string, w: string, j: nat)
    requires j < |w| && w[j] !in s
    ensures !Contains(s, w)
  {
    if Contains(s, w) {
      ContainsChar(s, w, j);
    }
  }

  /** A text with one high word scores 20. */
  lemma ScoreExampleHigh()
    ensures Score("this is strange") == 20
  {
    var s := "this is strange";
    LowerOfNoUpper(s);
    assert OccursAt(s, HighWords[2], 8);
    assert MentionsAny(Lower(s), HighWords);
  }

  /** A text with a medium word and no high word scores 10. */
  lemma ScoreExampleMedium()
    ensures Score("that's odd") == 10
  {
    var s := "that's odd";
    LowerOfNoUpper(s);
    assert OccursAt(s, MediumWords[1], 7);
    assert MentionsAny(Lower(s), MediumWords);
    NoHighWordInOdd();
  }

  /** A text with no keyword scores 0. */
  lemma ScoreExampleNone()
    ensures Score("hello there") == 0
  {
    var s := "hello there";
    LowerOfNoUpper(s);
    NoHighWordInHello();
    AbsentByChar(s, MediumWords[0], 0);
    AbsentByChar(s, MediumWords[1], 2);
    assert !MentionsAny(Lower(s), MediumWords);
  }

  /** "that's odd" lacks a letter of every high word. */
  lemma NoHighWordInOdd()
    ensures !MentionsAny("that's odd", HighWords)
  {
    NoHighWord("that's odd", 1, 0, 2, 0);
  }

  /** "hello there" lacks a letter of every high word. */
  lemma NoHighWordInHello()
    ensures !MentionsAny("hello there", HighWords)
  {
    NoHighWord("hello there", 1, 0, 0, 0);
  }

  /** A text lacking one letter of each high word holds none of them. */
  lemma NoHighWord(s: string, j0: nat, j1: nat, j2: nat, j3: nat)
    requires j0 < |HighWords[0]| && HighWords[0][j0] !in s
    requires j1 < |HighWords[1]| && HighWords[1][j1] !in s
    requires j2 < |HighWords[2]| && HighWords[2][j2] !in s
    requires j3 < |HighWords[3]| && HighWords[3][j3] !in s
    ensures !MentionsAny(s, HighWords)
  {
    AbsentByChar(s, HighWords[0], j0);
    AbsentByChar(s, HighWords[1], j1);
    AbsentByChar(s, HighWords[2], j2);
    AbsentByChar(s, HighWords[3], j3);
  }

  /** Upper-case keywords count, and "strange" outranks "odd". */
  lemma ScoreExampleBothTiers()
    ensures Score("Strange, and a bit ODD") == 20
  {
    var s := "Strange, and a bit ODD";
    assert Lower(s)[..7] == "strange";
    assert OccursAt(Lower(s), HighWords[2], 0);
    assert MentionsAny(Lower(s), HighWords);
  }
}

=== FILE: text.dfy ===
/** The string primitives the application relies on, restricted to ASCII:
    `trim`, `toLowerCase`, `includes`, `indexOf`, `lastIndexOf` and `split`. */
module Text {

  /** The ASCII characters that both `String.prototype.trim` and the regular
      expression class `\s` treat as white space or line terminators. */
  predicate IsSpace(c: char) {
    c == ' ' || c == '\t' || c == '\n' || c == '\r' || c == '\U{0B}' || c == '\U{0C}'
  }

  /** The ASCII line terminators; the regular expression `.` never matches them. */
  predicate IsLineTerminator(c: char) {
    c == '\n' || c == '\r'
  }

  predicate AllSpace(s: string) {
    forall i :: 0 <= i < |s| ==> IsSpace(s[i])
  }

  predicate NoLineTerminator(s: string) {
    forall i :: 0 <= i < |s| ==> !IsLineTerminator(s[i])
  }

  /** No white space at either end. */
  predicate IsTrimmed(s: string) {
    s == [] || (!IsSpace(s[0]) && !IsSpace(s[|s| - 1]))
  }

  /** The first position at or after `i` that is not white space, or `|s|`. */
  function SkipSpace(s: string, i: nat): (k: nat)
    requires i <= |s|
    ensures i <= k <= |s|
    ensures forall j :: i <= j < k ==> IsSpace(s[j])
    ensures k < |s| ==> !IsSpace(s[k])
    decreases |s| - i
  {
    if i == |s| || !IsSpace(s[i]) then i else SkipSpace(s, i + 1)
  }

  /** The position just after the last character before `i` that is not
      white space, or 0. */
  function SkipSpaceBack(s: string, i: nat): (k: nat)
    requires i <= |s|
    ensures k <= i
    ensures forall j :: k <= j < i ==> IsSpace(s[j])
    ensures k > 0 ==> !IsSpace(s[k - 1])
    decreases i
  {
    if i == 0 || !IsSpace(s[i - 1]) then i else SkipSpaceBack(s, i - 1)
  }

  /** `trimStart`: drops the leading white space and nothing else. */
  function TrimStart(s: string): (r: string)
    ensures IsTrimmed(r) || (r != [] && !IsSpace(r[0]))
  {
    s[SkipSpace(s, 0)..]
  }

  /** `trim`: drops the white space at both ends and nothing else. */
  function Trim(s: string): (r: string)
    ensures IsTrimmed(r)
    ensures |r| <= |s|
  {
    var b := SkipSpace(s, 0);
    var e := SkipSpaceBack(s, |s|);
    if e <= b then [] else s[b..e]
  }

  /** `trimStart` is determined by where the leading white space ends. */
  lemma TrimStartAt(s: string, n: nat)
    requires n <= |s| && (forall j :: 0 <= j < n ==> IsSpace(s[j])) && (n == |s| || !IsSpace(s[n]))
    ensures TrimStart(s) == s[n..]
  {
  }

  /** `trim` is determined by where the text proper starts and ends. */
  lemma TrimAt(s: string, b: nat, e: nat)
    requires b < e <= |s|
    requires forall j :: 0 <= j < b ==> IsSpace(s[j])
    requires forall j :: e <= j < |s| ==> IsSpace(s[j])
    requires !IsSpace(s[b]) && !IsSpace(s[e - 1])
    ensures Trim(s) == s[b..e]
  {
  }

  lemma TrimStartOfTrimmed(s: string)
    requires s == [] || !IsSpace(s[0])
    ensures TrimStart(s) == s
  {
    TrimStartAt(s, 0);
  }

  /** Trimming changes a string exactly when it has white space at an end. */
  lemma TrimIdentity(s: string)
    ensures Trim(s) == s <==> IsTrimmed(s)
  {
    if IsTrimmed(s) && s != [] {
      TrimAt(s, 0, |s|);
    }
  }

  /** A string made only of white space trims to the empty string, and only such a string does. */
  lemma TrimEmpty(s: string)
    ensures Trim(s) == [] <==> AllSpace(s)
  {
    var b := SkipSpace(s, 0);
    var e := SkipSpaceBack(s, |s|);
  }

  /** Every character of the trimmed string occurs in the string. */
  lemma TrimInside(s: string, c: char)
    requires c in Trim(s)
    ensures c in s
  {
    var b := SkipSpace(s, 0);
    var e := SkipSpaceBack(s, |s|);
    var i :| 0 <= i < |Trim(s)| && Trim(s)[i] == c;
    assert s[b + i] == c;
  }

  /** Trimming the start first changes nothing about the trimmed result. */
  lemma TrimAfterTrimStart(x: string)
    ensures Trim(TrimStart(x)) == Trim(x)
  {
    var b := SkipSpace(x, 0);
    var e := SkipSpaceBack(x, |x|);
    var y := TrimStart(x);
    if e <= b {
      assert forall j | 0 <= j < |x| :: IsSpace(x[j]);
      TrimEmpty(x);
      TrimEmpty(y);
    } else {
      TrimAt(y, 0, e - b);
      assert y[0..e - b] == x[b..e];
    }
  }

  /** ASCII `toLowerCase` of one character. */
  function LowerChar(c: char): (r: char)
    ensures !('A' <= r <= 'Z')
    ensures 'a' <= c <= 'z' || !('A' <= c <= 'Z') ==> r == c
    ensures IsSpace(r) <==> IsSpace(c)
  {
    if 'A' <= c <= 'Z' then (c as int - 'A' as int + 'a' as int) as char else c
  }

  /** ASCII `toLowerCase`: the same length, every letter lowered, nothing else touched. */
  function Lower(s: string): (r: string)
    ensures |r| == |s|
    ensures forall i :: 0 <= i < |s| ==> r[i] == LowerChar(s[i])
  {
    seq(|s|, i requires 0 <= i < |s| => LowerChar(s[i]))
  }

  predicate HasNoUpper(s: string) {
    forall i :: 0 <= i < |s| ==> !('A' <= s[i] <= 'Z')
  }

  lemma LowerHasNoUpper(s: string)
    ensures HasNoUpper(Lower(s))
  {
  }

  lemma LowerIdempotent(s: string)
    ensures Lower(Lower(s)) == Lower(s)
  {
  }

  lemma LowerOfNoUpper(s: string)
    requires HasNoUpper(s)
    ensures Lower(s) == s
  {
  }

  lemma LowerAppend(a: string, b: string)
    ensures Lower(a + b) == Lower(a) + Lower(b)
  {
  }

  /** Lowering keeps the white space exactly where it was. */
  lemma LowerKeepsTrimmed(s: string)
    requires IsTrimmed(s)
    ensures IsTrimmed(Lower(s))
  {
  }

  /** `w` occurs in `s` starting at position `i`. */
  predicate OccursAt(s: string, w: string, i: int) {
    0 <= i <= |s| - |w| && s[i..i + |w|] == w
  }

  /** `s.includes(w)`. */
  predicate Contains(s: string, w: string) {
    exists i | 0 <= i <= |s| - |w| :: OccursAt(s, w, i)
  }

  /** Extending a text on either side keeps every word it contains. */
  lemma ContainsExtend(a: string, s: string, b: string, w: string)
    requires Contains(s, w)
    ensures Contains(a + s + b, w)
  {
    var i :| 0 <= i <= |s| - |w| && OccursAt(s, w, i);
    assert (a + s + b)[|a| + i..|a| + i + |w|] == s[i..i + |w|];
    assert OccursAt(a + s + b, w, |a| + i);
  }

  /** Every character of a contained word occurs in the text. */
  lemma ContainsChar(s: string, w: string, j: int)
    requires Contains(s, w) && 0 <= j < |w|
    ensures w[j] in s
  {
    var i :| 0 <= i <= |s| - |w| && OccursAt(s, w, i);
    assert s[i + j] == s[i..i + |w|][j];
  }

  /** `s.indexOf(c)`: the first position of `c`, or -1. */
  function IndexOf(s: string, c: char): (r: int)
    ensures -1 <= r < |s|
    ensures r == -1 <==> c !in s
    ensures r >= 0 ==> s[r] == c && c !in s[..r]
  {
    if s == [] then -1
    else if s[0] == c then 0
    else
      var k := IndexOf(s[1..], c);
      if k == -1 then -1
      else
        assert s[..k + 1] == [s[0]] + s[1..][..k];
        k + 1
  }

  /** The first occurrence is determined by where it is. */
  lemma IndexOfAt(s: string, c: char, k: int)
    requires 0 <= k < |s| && s[k] == c && c !in s[..k]
    ensures IndexOf(s, c) == k
  {
  }

  /** `s.lastIndexOf(c)`: the last position of `c`, or -1. */
  function LastIndexOf(s: string, c: char): (r: int)
    ensures -1 <= r < |s|
    ensures r == -1 <==> c !in s
    ensures r >= 0 ==> s[r] == c && c !in s[r + 1..]
  {
    if s == [] then -1
    else if s[|s| - 1] == c then |s| - 1
    else
      var k := LastIndexOf(s[..|s| - 1], c);
      if k == -1 then
        assert s == s[..|s| - 1] + [s[|s| - 1]];
        -1
      else
        assert s[k + 1..] == s[..|s| - 1][k + 1..] + [s[|s| - 1]];
        k
  }

  /** The last occurrence is determined by where it is. */
  lemma LastIndexOfAt(s: string, c: char, k: int)
    requires 0 <= k < |s| && s[k] == c && c !in s[k + 1..]
    ensures LastIndexOf(s, c) == k
  {
  }

  /** A character absent from `a` first occurs in `a + [c] + b` just after `a`. */
  lemma FirstAfter(a: string, c: char, b: string)
    requires c !in a
    ensures IndexOf(a + [c] + b, c) == |a|
  {
    var t := a + [c] + b;
    assert t[..|a|] == a;
    IndexOfAt(t, c, |a|);
  }

  /** A character absent from `b` last occurs in `a + [c] + b` just before `b`. */
  lemma LastBefore(a: string, c: char, b: string)
    requires c !in b
    ensures LastIndexOf(a + [c] + b, c) == |a|
  {
    var t := a + [c] + b;
    assert t[|a| + 1..] == b;
    LastIndexOfAt(t, c, |a|);
  }

  /** Joining two single-line strings gives a single line. */
  lemma NoLineTerminatorAppend(a: string, b: string)
    requires NoLineTerminator(a) && NoLineTerminator(b)
    ensures NoLineTerminator(a + b)
  {
    forall k | 0 <= k < |a + b| ensures !IsLineTerminator((a + b)[k]) {
      if k >= |a| { assert (a + b)[k] == b[k - |a|]; }
    }
  }

  /** `s.split(sep)` for a one-character separator: the pieces between the
      separators, at least one, none containing the separator. */
  function Split(s: string, sep: char): (r: seq<string>)
    ensures |r| >= 1
    ensures forall i :: 0 <= i < |r| ==> sep !in r[i]
    decreases |s|
  {
    var k := IndexOf(s, sep);
    if k == -1 then [s] else [s[..k]] + Split(s[k + 1..], sep)
  }

  /** `pieces.join(sep)`. */
  function Join(pieces: seq<string>, sep: char): string
    requires |pieces| >= 1
  {
    if |pieces| == 1 then pieces[0] else pieces[0] + [sep] + Join(pieces[1..], sep)
  }

  /** Splitting loses nothing: joining the pieces rebuilds the text. */
  lemma {:induction false} JoinSplit(s: string, sep: char)
    ensures Join(Split(s, sep), sep) == s
    decreases |s|
  {
    var k := IndexOf(s, sep);
    if k != -1 {
      var head := s[..k];
      var rest := s[k + 1..];
      SplitAround(s, k);
      SplitCons(head, rest, sep);
      JoinSplit(rest, sep);
      JoinCons(head, Split(rest, sep), sep);
    }
  }

  lemma JoinCons(head: string, rest: seq<string>, sep: char)
    requires |rest| >= 1
    ensures Join([head] + rest, sep) == head + [sep] + Join(rest, sep)
  {
    assert ([head] + rest)[1..] == rest;
  }

  /** A separator splits the text into the pieces of either side. */
  lemma {:induction false} SplitAppend(a: string, b: string, sep: char)
    ensures Split(a + [sep] + b, sep) == Split(a, sep) + Split(b, sep)
    decreases |a|
  {
    var k := IndexOf(a, sep);
    if k == -1 {
      SplitCons(a, b, sep);
      SplitWithoutSeparator(a, sep);
    } else {
      SplitAppend(a[k + 1..], b, sep);
      SplitAppendStep(a, b, sep, k);
    }
  }

  /** The inductive step of `SplitAppend`: the piece before the first
      separator of `a` comes first on both sides. */
  lemma SplitAppendStep(a: string, b: string, sep: char, k: int)
    requires 0 <= k < |a| && IndexOf(a, sep) == k
    requires Split(a[k + 1..] + [sep] + b, sep) == Split(a[k + 1..], sep) + Split(b, sep)
    ensures Split(a + [sep] + b, sep) == Split(a, sep) + Split(b, sep)
  {
    var head := a[..k];
    var rest := a[k + 1..];
    var t := rest + [sep] + b;
    SplitAround(a, k);
    Regroup(head, rest, b, [sep]);
    SplitCons(head, t, sep);
    SplitCons(head, rest, sep);
    Compose(Split(a + [sep] + b, sep), Split(a, sep), head, Split(rest, sep), Split(b, sep), Split(t, sep));
  }

  lemma SplitAround<T>(a: seq<T>, k: int)
    requires 0 <= k < |a|
    ensures a == a[..k] + [a[k]] + a[k + 1..]
  {
  }

  lemma Compose<T>(x: seq<T>, y: seq<T>, h: T, r: seq<T>, b: seq<T>, t: seq<T>)
    requires x == [h] + t && t == r + b && y == [h] + r
    ensures x == y + b
  {
  }

  lemma Regroup<T>(x: seq<T>, y: seq<T>, z: seq<T>, m: seq<T>)
    ensures x + m + y + m + z == x + m + (y + m + z)
  {
  }

  lemma Regroup5<T>(a: seq<T>, b: seq<T>, c: seq<T>, d: seq<T>, e: seq<T>)
    ensures a + b + c + d + e == a + b + (c + d + e)
  {
  }

  /** A separator after a piece without one ends that piece. */
  lemma SplitCons(a: string, b: string, sep: char)
    requires sep !in a
    ensures Split(a + [sep] + b, sep) == [a] + Split(b, sep)
  {
    var s := a + [sep] + b;
    assert s[..|a|] == a;
    IndexOfAt(s, sep, |a|);
    assert s[|a| + 1..] == b;
  }

  lemma SplitWithoutSeparator(s: string, sep: char)
    requires sep !in s
    ensures Split(s, sep) == [s]
  {
  }

  /** Every piece of a split text is an infix of the text. */
  lemma {:induction false} SplitPiecesInside(s: string, sep: char, c: char)
    requires c !in s
    ensures PiecesWithout(Split(s, sep), c)
    decreases |s|
  {
    var k := IndexOf(s, sep);
    if k != -1 {
      var head := s[..k];
      var rest := s[k + 1..];
      SplitAround(s, k);
      SplitCons(head, rest, sep);
      assert c !in head && c !in rest by {
        SliceWithout(s, c, 0, k);
        SliceWithout(s, c, k + 1, |s|);
      }
      SplitPiecesInside(rest, sep, c);
      PiecesWithoutCons(head, Split(rest, sep), c);
    }
  }

  /** No piece contains `c`. */
  predicate PiecesWithout(pieces: seq<string>, c: char) {
    forall i :: 0 <= i < |pieces| ==> c !in pieces[i]
  }

  lemma PiecesWithoutCons(head: string, pieces: seq<string>, c: char)
    requires c !in head && PiecesWithout(pieces, c)
    ensures PiecesWithout([head] + pieces, c)
  {
    assert forall i | 1 <= i < |pieces| + 1 :: ([head] + pieces)[i] == pieces[i - 1];
  }

  lemma SliceWithout(s: string, c: char, i: int, j: int)
    requires 0 <= i <= j <= |s| && c !in s
    ensures c !in s[i..j]
  {
  }

  /** Every piece is white space. */
  predicate PiecesSpace(pieces: seq<string>) {
    forall i :: 0 <= i < |pieces| ==> AllSpace(pieces[i])
  }

  lemma PiecesSpaceCons(head: string, pieces: seq<string>)
    requires AllSpace(head) && PiecesSpace(pieces)
    ensures PiecesSpace([head] + pieces)
  {
    assert forall i | 1 <= i < |pieces| + 1 :: ([head] + pieces)[i] == pieces[i - 1];
  }

  lemma SliceSpace(s: string, i: int, j: int)
    requires 0 <= i <= j <= |s| && AllSpace(s)
    ensures AllSpace(s[i..j])
  {
    assert forall t | 0 <= t < j - i :: s[i..j][t] == s[i + t];
  }

  /** In an all-white-space text every piece is white space too. */
  lemma {:induction false} SplitAllSpace(s: string, sep: char)
    requires AllSpace(s)
    ensures PiecesSpace(Split(s, sep))
    decreases |s|
  {
    var k := IndexOf(s, sep);
    if k != -1 {
      var head := s[..k];
      var rest := s[k + 1..];
      SplitAround(s, k);
      SplitCons(head, rest, sep);
      SliceSpace(s, 0, k);
      SliceSpace(s, k + 1, |s|);
      SplitAllSpace(rest, sep);
      PiecesSpaceCons(head, Split(rest, sep));
    }
  }
}

=== FILE: world.dfy ===
/** The application's state: the map locations, the world shown to the
    viewers, Truman, the cast, the bets and the conversations. */
module World {
  import opened Wrappers
  import opened Json
  import NextAction

  /** The five places on the map. */
  datatype Location = Home | Work | Cafe | Store | Park

  /** The key of a location in the `locations` table. */
  function Key(l: Location): string {
    match l
    case Home => "home"
    case Work => "work"
    case Cafe => "cafe"
    case Store => "store"
    case Park => "park"
  }

  /** The name shown for a location. */
  function Label(l: Location): string {
    match l
    case Home => "Truman's House"
    case Work => "Insurance Office"
    case Cafe => "Cafe"
    case Store => "Store"
    case Park => "Park"
  }

  /** `locations[key]`: the location with that key, if there is one. */
  function LocationOf(key: string): (r: Option<Location>)
    ensures r.Some? ==> Key(r.value) == key
  {
    if key == "home" then Some(Home)
    else if key == "work" then Some(Work)
    else if key == "cafe" then Some(Cafe)
    else if key == "store" then Some(Store)
    else if key == "park" then Some(Park)
    else None
  }

  /** Every location is found under its own key, so the keys are distinct. */
  lemma LocationOfKey(l: Location)
    ensures LocationOf(Key(l)) == Some(l)
  {
  }

  /** A key names a location exactly when it is one of the five keys. */
  lemma LocationOfKnown(key: string)
    ensures LocationOf(key).Some? <==> exists l: Location :: Key(l) == key
  {
    if exists l: Location :: Key(l) == key {
      var l: Location :| Key(l) == key;
      LocationOfKey(l);
    }
  }

  datatype WorldState = WorldState(
    weather: string,
    timeOfDay: string,
    currentEvent: Option<string>,
    suspicionMeter: int,
    viewerCount: string)

  datatype Truman = Truman(
    name: string,
    currentMood: string,
    currentActivity: string,
    routine: string,
    suspicionLevel: string,
    recentDiscoveries: seq<string>)

  datatype Actor = Actor(
    name: string,
    role: string,
    personality: string,
    currentMood: string,
    currentActivity: string,
    agenda: string,
    trustLevel: int)

  /** An entry of the main conversation: an actor's line, or Truman's reply
      with the suspicion increase it caused. */
  datatype Entry =
    | Action(from: string, text: string)
    | Response(from: string, text: string, suspicionIncrease: int)
  {
    /** The entry as the next-action route reads it. */
    function AsHistory(): NextAction.HistoryEntry {
      NextAction.HistoryEntry(from, text)
    }
  }

  /** One line of an actor's private history with the director. */
  datatype Message = Message(from: string, text: string)

  datatype Session = Session(
    world: WorldState,
    recentEvents: seq<Option<string>>,
    currentLocation: Location,
    truman: Truman,
    actors: seq<Actor>,
    bets: seq<Json>,
    selectedActor: Option<Actor>,
    instruction: string,
    conversation: seq<Entry>,
    agentConversations: map<string, seq<Message>>)

  const MeterCeiling := 100

  /** The suspicion meter reads between 0 and 100. */
  predicate MeterInRange(w: WorldState) {
    0 <= w.suspicionMeter <= MeterCeiling
  }

  /** `agentConversations[name] || []`. */
  function History(s: Session, name: string): seq<Message> {
    if name in s.agentConversations then s.agentConversations[name] else []
  }

  const InitialWorld := WorldState("Sunny", "Morning", None, 20, "1.2M")

  const InitialTruman := Truman("Truman Burbank", "Content", "Getting ready for work",
                                "Daily commute to insurance company", "Low", [])

  const Meryl := Actor("Meryl", "Wife", "Product placement specialist", "Anxious",
                       "Preparing morning coffee", "Must promote new coffee brand", 90)

  const Marlon := Actor("Marlon", "Best Friend", "Crisis manager", "Alert",
                        "Watching neighborhood", "Keep Truman from discovering the truth", 95)

  function YesNoBet(id: real, question: string, endTime: string, pool: string, yes: string, no: string): Json {
    JObject(map[
      "id" := JNumber(id),
      "question" := JString(question),
      "options" := JArray([JString("Yes"), JString("No")]),
      "endTime" := JString(endTime),
      "pool" := JString(pool),
      "odds" := JObject(map["Yes" := JString(yes), "No" := JString(no)])])
  }

  const InitialBets := [
    YesNoBet(1.0, "Will Truman notice today's staged event?", "1 hour", "1000 USDC", "3.5", "1.5"),
    YesNoBet(2.0, "Will Truman try to leave Seahaven today?", "24 hours", "5000 USDC", "10.0", "1.1")]

  const InitialSession := Session(InitialWorld, [], Home, InitialTruman, [Meryl, Marlon],
                                  InitialBets, None, "", [], map[])
}

=== FILE: world_ai_bets.dfy ===
/** The post-processing of the bet-generation route: the generated text must
    be present and non-empty, it is parsed, and the parsed bet must have a
    truthy `question`, `options`, `endTime` and `odds`. Every failure gives
    the same answer, status 500 with "Failed to generate bet"; the reasons
    are kept apart here only to state what causes each. */
module WorldAiBets {
  import opened Wrappers
  import opened Json

  datatype BetError =
    | NoResponse     // the content is missing or empty
    | Unparseable    // `JSON.parse` throws
    | NullBet        // the content is `null`, so reading `bet.question` throws
    | InvalidFormat  // a required field is falsy

  const FailureMessage := "Failed to generate bet"

  /** The four fields the route requires, each truthy. */
  predicate HasRequiredFields(bet: Json) {
    Truthy(Property(bet, "question")) && Truthy(Property(bet, "options"))
    && Truthy(Property(bet, "endTime")) && Truthy(Property(bet, "odds"))
  }

  /** The route after the model call: the bet as parsed, or why it fails. */
  function GenerateBet(content: Option<string>, parse: string -> Option<Json>): (r: Result<Json, BetError>)
    ensures r.Ok? <==> content.Some? && content.value != [] && parse(content.value).Some?
                       && HasRequiredFields(parse(content.value).value)
    ensures r.Ok? ==> Some(r.value) == parse(content.value)
    ensures (content.None? || content.value == []) ==> r == Err(NoResponse)
  {
    match content
    case None => Err(NoResponse)
    case Some(text) =>
      if text == [] then Err(NoResponse)
      else
        match parse(text)
        case None => Err(Unparseable)
        case Some(JNull) => Err(NullBet)
        case Some(bet) => if HasRequiredFields(bet) then Ok(bet) else Err(InvalidFormat)
  }

  /** A bet with a falsy required field is rejected: a missing one, or an
      empty question. */
  lemma FalsyFieldRejected(content: string, parse: string -> Option<Json>, fields: map<string, Json>, key: string)
    requires content != [] && parse(content) == Some(JObject(fields))
    requires key in ["question", "options", "endTime", "odds"]
    requires key !in fields || fields[key] == JString([]) || fields[key] == JNull
    ensures GenerateBet(Some(content), parse) == Err(InvalidFormat)
  {
  }

  /** A bet object with the four fields present as non-empty strings and
      containers, and nothing else. */
  function MinimalBet(question: string, endTime: string): Json {
    JObject(map["question" := JString(question), "options" := JArray([]),
                "endTime" := JString(endTime), "odds" := JObject(map[])])
  }

  /** The check is shallow: an empty options list and empty odds pass, and
      `id` and `pool` need not be there. The bet comes back as parsed. */
  lemma ShallowValidation(content: string, parse: string -> Option<Json>, question: string, endTime: string)
    requires content != [] && question != [] && endTime != []
    requires parse(content) == Some(MinimalBet(question, endTime))
    ensures GenerateBet(Some(content), parse) == Ok(MinimalBet(question, endTime))
    ensures Property(MinimalBet(question, endTime), "id") == None
    ensures Property(MinimalBet(question, endTime), "pool") == None
  {
    var bet := MinimalBet(question, endTime);
    assert Property(bet, "options") == Some(JArray([]));
    assert Property(bet, "odds") == Some(JObject(map[]));
  }

  /** Only objects can pass: an array, a string, a number or a boolean has
      none of the four fields. */
  lemma OnlyObjectsPass(content: string, parse: string -> Option<Json>)
    requires content != [] && parse(content).Some? && !parse(content).value.JObject?
    ensures GenerateBet(Some(content), parse).Err?
  {
  }
}

=== FILE: wrappers.dfy ===
/** Optional values and results, used for the absent JavaScript values
    (`undefined`, `null`, a failed fetch) and for thrown errors. */
module Wrappers {

  datatype Option<+T> = None | Some(value: T) {
    /** The value, or `default` when absent (JavaScript's `x || default` on a present value). */
    function GetOr(default: T): T {
      match this
      case Some(v) => v
      case None => default
    }
  }

  datatype Result<+T, +E> = Ok(value: T) | Err(error: E)
}
